=== FILE: README.md ===
# C subset front end: lexer, AST builder, renderers, graph numbering

A Dafny model of `compiler_core.py`, the core of a small front end for a C-like
subset. The model covers:

- the lexer that `create_lexer` configures and `tokenize_file` runs (`lexer.lex`):
  whitespace and `//` comments are skipped, the seventeen terminals are matched,
  and the first character nothing matches aborts the run;
- the `ASTNode` tree and the `ParserTransformer` callbacks (`statement`,
  `expression`, `factor`, `declaration`, `compound_statement`) with the
  bottom-up walk that applies them;
- the two text renderers `print_ast` and `print_ast_as_tree`, as the list of
  lines they print;
- `ast_to_graph`, which numbers the nodes in pre-order, labels them, links each
  child to its parent and collects the leaves.

Modules, one per concern:

| file | module | what it holds |
|---|---|---|
| `results.dfy` | `Results` | `Option`, `Result` and the exceptions the source can raise |
| `decimal.dfy` | `Decimal` | `int(text)` and `str(n)` on decimal digits |
| `tokens.dfy` | `Tokens` | token kinds, the terminals' patterns, skippable text |
| `lexer.dfy` | `Lexer` | the scanner and its soundness and failure lemmas |
| `ast.dfy` | `Ast` | AST nodes, transformer items, parse trees |
| `transformer.dfy` | `Transformer` | the callbacks, the walk, the fold lemmas |
| `records.dfy` | `Records` | the `ASTNode` object as the renderers see it; the pre-order walk |
| `render.dfy` | `Render` | `print_ast` and `print_ast_as_tree` |
| `graph.dfy` | `Graph` | `ast_to_graph` |

Each operation except `declaration` (whose contract states its result
directly) is paired with an independent description and a lemma linking the
two: the lexer's output with a layout of the input text (`LaysOut`: longest
matches separated by whitespace and closed comments), in both directions, the
expression fold with a left-nested tree (`NestLeft`), the compound filter with
the positions of the present children (`Present`), both renderers with a flat
listing of the pre-order walk (`Listing`, `Drawing`), and the graph with a
pre-order numbering (`Numbered`, `LeafIds`, `Forward`).

In three places the model follows the code as written:

- A NUMBER with a decimal point goes to Python's `int(...)`, which raises
  `ValueError`; it is not truncated to an integer.
- `declaration` stores the assigned expression inside the node's `value`
  dictionary and leaves `children` empty, so both renderers and the graph treat
  an `Assignment` as a leaf.
- The grammar given to Lark declares only `start: token*`. The callbacks are
  named after productions (`statement`, `expression`, ...) that this grammar
  does not have, so the model takes as input a parse tree whose branches carry
  those five production names and does not model how such a tree is parsed.

## Model

| member | source | states |
|---|---|---|
| `Lexer.Tokenize` | compiler_core.py:64-68 | A returned token list is the token sequence of a layout of the whole text: every lexeme is the text of its span and matches its kind's pattern, spans are in input order without overlap, no token could have been longer by the next character, the text in front of each token is whitespace and closed comments, and the text after the last one is whitespace or comments. No list is returned only when some position of the text is one the lexer cannot pass. |
| `Lexer.LexFrom` | compiler_core.py:13-34 | The same two promises for the text from any position on, with each token's span. |
| `Lexer.StepAt` | compiler_core.py:14-34 | One lexer move: a skip covers whitespace or a comment, and stops at a line break or the end unless what it covered is settled; an emitted token's lexeme is the text it consumed, matches its kind's pattern and is the longest match (a `/` followed by `/` would have opened a comment); the lexer is stuck exactly at a character that starts no pattern or at a quote with no closing quote after it. |
| `Lexer.LexComplete` | compiler_core.py:13-34 | Conversely, any layout of the text from a position on is exactly what the lexer returns from there. |
| `Lexer.TokenizeComplete` | compiler_core.py:64-68 | A layout of the whole text is exactly the token list `tokenize_file` returns. |
| `Lexer.LayoutUnique` | compiler_core.py:13-34 | A text has at most one layout: with longest match and comments running to the line end, the lexer never has a choice. |
| `Lexer.TokenizeFailsIffNoLayout` | compiler_core.py:64-75 | The lexer returns a list exactly when the text has a layout, and raises exactly when it has none. |
| `Lexer.TokenAt` | compiler_core.py:14-34 | A longest-match token at a position is the token the lexer emits there. |
| `Lexer.GapSpaceSkipped` | compiler_core.py:14 | Skipping a whitespace run in front of a token never passes the token and leaves a settled gap. |
| `Lexer.GapCommentSkipped` | compiler_core.py:15 | A comment in front of a token is closed by a line break before the token, and skipping it leaves a settled gap. |
| `Lexer.NumberAt` | compiler_core.py:28 | The NUMBER pattern reads the digits, then a point and the digits after it, and stops exactly where a longest match ends. |
| `Lexer.SkipSpace` | compiler_core.py:14 | The whole whitespace run at the position is consumed, and nothing else: every consumed character is whitespace and the next one is not; the run is settled skippable text. |
| `Lexer.SkipComment` | compiler_core.py:15 | A `//` comment runs up to the first line break after it, or the end of the text, and leaves that line break unconsumed; it is skippable text. |
| `Lexer.LexIdentifier` | compiler_core.py:27 | An identifier is read as far as identifier characters go: its text matches `[a-zA-Z_][a-zA-Z0-9_]*` and the next character is not an identifier character. |
| `Lexer.LexNumber` | compiler_core.py:28 | A number is read as far as `\d+(\.\d*)?` goes: its text matches the pattern and the next character is neither a digit nor, when no point was read yet, a point. |
| `Lexer.LexString` | compiler_core.py:20 | A string literal ends at the first quote after the opening one; there is no match exactly when no quote follows. |
| `Lexer.TriviaIffNoTokens` | compiler_core.py:14-15 | The lexer returns an empty list exactly when the text is whitespace and `//` comments only. |
| `Lexer.BlockedFails` | compiler_core.py:73-75 | A run of the lexer that starts at a position no pattern matches returns nothing. |
| `Lexer.BlockedAbortsRun` | compiler_core.py:64-75 | When the lexer, moving on from any position without getting stuck, arrives at a position it cannot pass, the whole run returns nothing, so the tokens read on the way are dropped; from the start of the text, `tokenize_file` gets no token list. |
| `Lexer.UnterminatedStringExample` | compiler_core.py:20 | `s = "abc` fails as a whole because its string literal is never closed. |
| `Decimal.ParseInt` | compiler_core.py:117 | On the lexemes the lexer produces (no sign, no surrounding whitespace, no `_`), `int(text)` succeeds exactly on a non-empty run of decimal digits no longer than CPython's default cap of 4300 digits. |
| `Decimal.NatToString` | compiler_core.py:171 | `str(n)` of a natural number is a non-empty run of digits with no leading zero unless it is `0`. |
| `Decimal.ParseShow` | compiler_core.py:117 | The digits `str(n)` writes denote `n`, and `int` reads them back as `n` whenever they are within the digit cap. |
| `Decimal.IntToString` | compiler_core.py:198 | `str(v)` of an integer starts with `-` exactly when `v` is negative, and the digits after the sign denote the magnitude of `v`. |
| `Decimal.ShowParse` | compiler_core.py:117 | Writing the value of a digit run with no leading zero gives the same digits back. |
| `Transformer.StatementOf` | compiler_core.py:95-96 | `statement` raises `IndexError` on no children and otherwise returns the first one. |
| `Transformer.StatementTransparent` | compiler_core.py:95-96 | A `statement` around one subtree builds the same result as the subtree alone. |
| `Transformer.ExpressionOf` | compiler_core.py:98-100 | An empty `expression` raises `IndexError`; one with a single child returns that child. |
| `Transformer.ExpressionFoldsLeft` | compiler_core.py:102-112 | For children `e0 op1 e1 ... opk ek` the result is the left-nested tree with `opk` at the root: `a - b - c` is `(a - b) - c`. |
| `Transformer.FoldAddsOneOpPerOperator` | compiler_core.py:103-110 | The fold adds exactly one `BinaryOp` per operator to those already inside the operands. |
| `Transformer.TrailingOperatorIgnored` | compiler_core.py:103 | A child after an odd number of children is ignored: a dangling operator does not change the result and raises nothing. |
| `Transformer.LeftAssociativeExample` | compiler_core.py:98-121 | `1 + 2 - 3` builds `BinaryOp('-', BinaryOp('+', 1, 2), 3)`. |
| `Transformer.FactorOf` | compiler_core.py:114-121 | The corrected `factor`: `IndexError` on no children; a NUMBER token gives a `Number` exactly when its text is all digits and within the digit cap, holding the value `int` reads, and raises `ValueError` otherwise; any other token gives an `Identifier` of its text; a built subtree comes back unchanged. |
| `Transformer.FactorAsWritten` | compiler_core.py:114-121 | `factor` as written: every token goes to `int`, so a token child succeeds exactly when its text is all digits and within the digit cap, raises `ValueError` otherwise, and on success always gives a `Number`, never an `Identifier`; a built subtree comes back unchanged. |
| `Transformer.FactorClassification` | compiler_core.py:114-121 | Corrected `factor` on what the lexer's NUMBER pattern produces: a NUMBER lexeme succeeds exactly when it has no decimal point and at most 4300 digits, and an absent child fails; its other clauses (the value, `ValueError`, `Identifier`, subtree passthrough) restate `Transformer.FactorOf` for a list with a first item. |
| `Transformer.ParenthesesTransparent` | compiler_core.py:118-119 | A `factor` around a subtree already built adds nothing, so parentheses leave no node. |
| `Transformer.FactorAsWrittenRejectsIdentifiers` | compiler_core.py:116-117 | As written, every identifier reaching `factor` raises `ValueError`, where the corrected callback builds an `Identifier`. |
| `Transformer.DeclarationOf` | compiler_core.py:123-134 | Two children give a `Declaration` and only two do; four or more give an `Assignment` whose value is the fourth child; fewer than two, or exactly three, raise `IndexError`; type and name are the first two tokens' texts unchanged. |
| `Transformer.Present` | compiler_core.py:137 | The kept children are exactly the subtrees, in their original order: the subtree at position `j` lands after the subtrees before it, and the count matches. |
| `Transformer.CompoundOf` | compiler_core.py:136-137 | Corrected `compound_statement`: succeeds exactly when no child is a bare token, and its statements are the present children in source order with the empty ones dropped. |
| `Transformer.CompoundAsWritten` | compiler_core.py:136-137 | `compound_statement` as written; it has no contract of its own, and what it does is stated by `Transformer.CompoundAsWrittenAlwaysFails`. |
| `Transformer.CompoundAsWrittenAlwaysFails` | compiler_core.py:137 | As written, `compound_statement` raises `TypeError` on every input, even an empty pair of braces, which the corrected callback builds into an empty `CompoundStatement`. |
| `Transformer.Apply` | compiler_core.py:91-137 | The callback the transformer calls for a production, chosen by the production's name; it has no contract of its own, and each callback's row states what it returns. |
| `Transformer.Transform` | compiler_core.py:147 | `transformer.transform(tree)` run with the corrected `factor` and `compound_statement` (see Findings): a token leaf stays the token, a missing part stays `None`, a failing child makes the whole production fail with that child's exception, and a production whose children all succeed gives exactly its callback's result on them, exception included. |
| `Transformer.TransformAll` | compiler_core.py:147 | The children of a production are transformed left to right: the walk succeeds exactly when every child does, and then gives one result per child, in order; when it fails, its error is that of the first failing child, every child before which succeeded. |
| `Records.View` | compiler_core.py:85-137 | The `ASTNode` object the transformer builds for a node: its `type` is the node's type name, its `value` is `None` only for a compound statement, a number's value is `str` of the number, an identifier's its name and a binary operation's its operator; a binary operation's children are its left then right operand's objects, a compound statement's are its statements' objects in order, and every other node has none. |
| `Records.WalkNodes` | compiler_core.py:175-176 | The walk both renderers follow meets the nodes in pre-order: node, then each child's subtree in stored order. |
| `Records.WalkChild` | compiler_core.py:202-204 | On the walk, child `i` of any node comes right after the subtrees of the children before it, and is flagged last exactly when it is the last child. |
| `Render.PrintAst` | compiler_core.py:168-176 | The output of `print_ast(root)`, one element per printed line, is the flat listing of the pre-order walk, one element per node. |
| `Render.IndentedIsWalk` | compiler_core.py:168-176 | `print_ast` prints one line per node of the walk, in walk order, each indented two spaces per level below the starting indentation. |
| `Render.PrintAstListsPreOrder` | compiler_core.py:168-176 | From the root, line `k` of `print_ast` is the `k`-th node in pre-order, as `type: value` (`None` when there is no value), after two spaces per level of depth. |
| `Render.PrintAstExample` | compiler_core.py:168-176 | The lines printed for `1 + x`. |
| `Render.PrintAstAsTree` | compiler_core.py:181-204 | The output of `print_ast_as_tree(root)`, one element per printed line, is the flat drawing of the walk with the root as a last child, and starts with `└── ` and the root's type. |
| `Render.BoxIsWalk` | compiler_core.py:192-204 | `print_ast_as_tree` prints, per node of the walk in walk order, its type behind its ancestors' rails and its own connector, then its value one rail deeper behind a tee. |
| `Render.PrintAstAsTreeIsWalk` | compiler_core.py:181-204 | The whole drawing is that flat drawing of the walk, with the root drawn as a last child. |
| `Render.ChildConnector` | compiler_core.py:200-204 | Child `i` of any node is drawn with the corner `└── ` exactly when it is the last child and with the tee `├── ` otherwise, behind the rails of its parent's path. |
| `Render.PrintAstAsTreeExample` | compiler_core.py:192-204 | The lines drawn for `1 + x`. |
| `Graph.Build` | compiler_core.py:210-228 | One call of `ast_to_graph`; it has no contract of its own, and what it does is stated by `Graph.BuildNumbers`, `Graph.BuildLeaves` and `Graph.BuildEdges`. |
| `Graph.BuildNumbers` | compiler_core.py:210-228 | One call numbers the subtree's nodes consecutively from the counter in pre-order, labels each with its type and value, keeps the nodes already there, and advances the counter by the subtree's size. |
| `Graph.BuildLeaves` | compiler_core.py:219-221 | The leaf set grows by exactly the numbers of the childless nodes of the subtree. |
| `Graph.BuildEdges` | compiler_core.py:223-228 | One call adds one edge per node except a root without parent; the `j`-th new edge ends at the `j`-th new non-root number and leaves from an earlier one; the parent's edge comes first; old edges are kept. |
| `Graph.BuildChildEdge` | compiler_core.py:223-228 | The edge ending at child `i` of the node numbered `c + k` leaves from `c + k`. |
| `Graph.AstToGraph` | compiler_core.py:210-228 | The graph of a tree: node `k` of the pre-order is numbered `k` with its label, the leaves are the childless nodes, and every node but the root has exactly one incoming edge, from an earlier node. |
| `Graph.AstToGraphLinksParents` | compiler_core.py:223-228 | In the graph of a tree, the edge into each child comes from its parent: the edges are exactly the tree's parent links. |
| `Graph.PlotsAsWritten` | compiler_core.py:210-234 | Successive `plot_ast` calls as written, each calling `ast_to_graph` without a counter: one graph per tree; the shared counter is stated by `Graph.CounterLeaksAcrossCalls`. |
| `Graph.CounterLeaksAcrossCalls` | compiler_core.py:210-226 | As written, a second top-level call numbers its root after all the nodes of the first tree, where the corrected graph numbers every root 0. |

## Left out

- `Decimal.ParseInt`: the 4300-digit cap is CPython's default (since 3.11 and in the security releases of earlier versions); it can be changed with `sys.set_int_max_str_digits` or `PYTHONINTMAXSTRDIGITS`, and older interpreters have none. The model fixes it at the default.
- File reading, printing and the module-level script code (`tokenize_file`'s `open`, the prints and `except` handlers, `tokenize_and_parse`'s I/O, the calls at import time): the model works on the text and returns the lines or the failure instead of printing them.
- Lark's parser and the grammar's `start`/`token` tree: the model starts from a parse tree with the transformer's production names; no parser for the subset is presented as the source's.
- `plot_ast` and its `hierarchy_pos` layout, `matplotlib` and the `networkx` drawing: floating-point layout and plotting.
- `textwrap.fill(label, width=16)`: the graph's labels are the unwrapped text.
- `Render.PrintAst`, `Render.PrintAstAsTree`: each element of the output is one printed line as the code intends it (for `print_ast`, the `end=""` print of the type and the print of the value together); a value containing a line break (a string literal token kept as an `Identifier` text) prints as several physical lines but stays one element.
- `print_ast`'s branch for Lark `Tree` objects (`hasattr(node, 'data')`), the matching branch of `print_ast_as_tree` and `ast_to_graph`'s `str(node.data)` label: the model renders and numbers the `ASTNode` tree only.
- The exact text of exception messages and the offending offset that Lark reports; a failure is `None` or an `Err` carrying the class of the exception the callback raised. Lark's `Transformer` re-raises that exception wrapped in its `VisitError`, with the original as `orig_exc`, so the class `transform` itself raises is always `VisitError`; the wrapper is not modelled.
- Whitespace is the ASCII part of Python's `\s` (` \t\n\r\v\f` and U+001C to U+001F) and digits are `0`-`9`; the non-ASCII characters Python's `\s` and `\d` also match are not modelled.
- `Records.View`: a `Declaration` or `Assignment` value is shown as a fixed dictionary text with plain strings for the tokens and the right-hand side by its node type. Python's `str` of a `Declaration` dictionary is deterministic but shows each token's `repr` with its kind (`{'type': Token('IDENTIFIER', 'int'), 'name': Token('IDENTIFIER', 'x')}`), which the model's node does not keep; an `Assignment` dictionary also holds the right-hand side object's default `repr`, which contains its memory address.
- `Transformer.ExpressionOf`: with two or more children, the source appends whatever object stands at an operand position, and reads `.value` of whatever stands at an operator position, so a token operand or a node in operator position still builds a `BinaryOp`. The model's `BinaryOp` holds two nodes and an operator text, so such children give `Err(Malformed)` instead; the grammar that hands `expression` its children is not part of this model.
- `Transformer.FactorAsWritten`: a `None` child builds `Identifier(None)` in the source (the `else` branch); the model's `Identifier` holds a text, so this case gives `Err(Malformed)`.
- `Transformer.FactorOf`, `Transformer.DeclarationOf`, `Transformer.CompoundOf`: children of a shape the source's grammar can never hand them (a token where a subtree must be, an absent child where a token must be) give `Err(Malformed)` rather than the Python behaviour on such objects.

## Findings

| source | as written | input that shows it | evidently intended | confidence | as-written member | corrected member |
|---|---|---|---|---|---|---|
| compiler_core.py:116-117 | Lark tokens are `str` subclasses, so `isinstance(item, str)` holds for an IDENTIFIER too and `int(item)` raises `ValueError` | a `factor` over the IDENTIFIER token `x` | a non-number token becomes `Identifier(x)` | high, not executed | `Transformer.FactorAsWrittenRejectsIdentifiers` (about `Transformer.FactorAsWritten`) | `Transformer.FactorClassification` (about `Transformer.FactorOf`) |
| compiler_core.py:137 | `ASTNode(..., children=[...])` passes a keyword the constructor does not take, so every call raises `TypeError` | a `compound_statement` over `{ }` | a `CompoundStatement` whose statements are the non-empty children | high, not executed | `Transformer.CompoundAsWrittenAlwaysFails` (about `Transformer.CompoundAsWritten`) | `Transformer.CompoundOf` |
| compiler_core.py:210 | the default `counter=[0]` is one list shared by all calls, so a second top-level call (another parse in compiler_ui.py:57) starts numbering where the first stopped | `plot_ast` called twice, first on a one-node tree | every graph numbered from 0 | medium, not executed | `Graph.CounterLeaksAcrossCalls` (about `Graph.PlotsAsWritten`) | `Graph.AstToGraph` |

=== FILE: ast.dfy ===
/** The abstract syntax tree the transformer builds, and the parse-tree
    items its callbacks receive. */
module Ast {
  import opened Tokens

  /** One constructor per node type the transformer creates. A `BinaryOp`
      always has exactly two operands, left first; an `Assignment` keeps its
      right-hand side inside the node's value, as the source does; a
      `CompoundStatement` keeps its statements in source order. */
  datatype Node =
    | Number(num: int)
    | Identifier(name: string)
    | BinaryOp(op: string, left: Node, right: Node)
    | Declaration(typeName: string, varName: string)
    | Assignment(typeName: string, varName: string, rhs: Node)
    | CompoundStatement(statements: seq<Node>)

  /** One child a callback receives: a token the parser kept, the result of
      an already transformed subtree, or the `None` placeholder the parser
      puts where an optional part is missing. */
  datatype Item = Tok(token: Token) | Sub(node: Node) | Absent

  /** The callbacks the transformer defines, by production name. */
  datatype Rule = StatementRule | ExpressionRule | FactorRule | DeclarationRule | CompoundRule

  /** A parse tree as the parser hands it to the transformer. */
  datatype ParseTree =
    | Leaf(token: Token)
    | Missing
    | Branch(rule: Rule, kids: seq<ParseTree>)

  /** Number of `BinaryOp` nodes in a tree (the right-hand side of an
      assignment included). */
  function BinaryOps(n: Node): nat
  {
    match n
    case BinaryOp(_, l, r) => 1 + BinaryOps(l) + BinaryOps(r)
    case Assignment(_, _, v) => BinaryOps(v)
    case CompoundStatement(ss) => BinaryOpsAll(ss)
    case _ => 0
  }

  function BinaryOpsAll(ss: seq<Node>): nat
  {
    if ss == [] then 0 else BinaryOps(ss[0]) + BinaryOpsAll(ss[1..])
  }
}

=== FILE: decimal.dfy ===
/** Decimal text and natural numbers: Python's `int(text)` on the texts the
    lexer can produce, and `str(n)` for rendering `Number` values. */
module Decimal {
  import opened Results

  predicate IsDigit(c: char) { '0' <= c <= '9' }

  predicate AllDigits(s: string) {
    forall k | 0 <= k < |s| :: IsDigit(s[k])
  }

  function DigitValue(c: char): nat
    requires IsDigit(c)
  {
    (c as int - '0' as int) as nat
  }

  function DigitChar(d: nat): (c: char)
    requires d < 10
    ensures IsDigit(c) && DigitValue(c) == d
  {
    ('0' as int + d) as char
  }

  /** Value of a text made only of decimal digits, read most significant
      digit first. */
  function DigitsValue(s: string): nat
    requires AllDigits(s)
    decreases |s|
  {
    if s == [] then 0
    else DigitsValue(s[..|s| - 1]) * 10 + DigitValue(s[|s| - 1])
  }

  /** CPython's default cap on the number of digits `int(text)` converts
      (`sys.int_info.default_max_str_digits`); a longer text raises
      `ValueError`. */
  const MaxStrDigits: nat := 4300

  /** `int(text)` restricted to the lexemes the grammar produces: it
      succeeds exactly on non-empty all-digit text of at most
      `MaxStrDigits` digits (a decimal point, as in `1.5`, a letter, or a
      longer run makes Python raise `ValueError`). */
  function ParseInt(s: string): (r: Option<nat>)
    ensures r.Some? <==> 0 < |s| <= MaxStrDigits && AllDigits(s)
  {
    if 0 < |s| <= MaxStrDigits && AllDigits(s) then Some(DigitsValue(s)) else None
  }

  /** `str(n)` for a natural number: the shortest decimal text. */
  function NatToString(n: nat): (s: string)
    ensures |s| > 0 && AllDigits(s)
    ensures s[0] == '0' ==> n == 0 && s == "0"
    decreases n
  {
    if n < 10 then [DigitChar(n)] else NatToString(n / 10) + [DigitChar(n % 10)]
  }

  /** `str(v)` for any integer, with a leading `-` for negatives: the
      digits after the sign denote the magnitude. */
  function IntToString(v: int): (r: string)
    ensures |r| > 0 && (r[0] == '-' <==> v < 0)
    ensures v >= 0 ==> AllDigits(r) && DigitsValue(r) == v
    ensures v < 0 ==> AllDigits(r[1..]) && DigitsValue(r[1..]) == -v
  {
    ParseShow(if v < 0 then -v else v);
    if v < 0 then
      var d := NatToString(-v);
      assert ("-" + d)[1..] == d;
      "-" + d
    else
      NatToString(v)
  }

  /** Reading back what `str` wrote gives the number again, within the
      digit cap. */
  lemma {:induction false} ParseShow(n: nat)
    ensures DigitsValue(NatToString(n)) == n
    ensures |NatToString(n)| <= MaxStrDigits ==> ParseInt(NatToString(n)) == Some(n)
    decreases n
  {
    var s := NatToString(n);
    if n >= 10 {
      ParseShow(n / 10);
      assert s[..|s| - 1] == NatToString(n / 10);
    } else {
      assert s[..|s| - 1] == [];
    }
    assert DigitsValue(s) == n;
  }

  /** Writing back what was read gives the text again, when the text has no
      leading zero. */
  lemma {:induction false} ShowParse(s: string)
    requires |s| > 0 && AllDigits(s)
    requires s[0] == '0' ==> |s| == 1
    ensures NatToString(DigitsValue(s)) == s
    decreases |s|
  {
    var init := s[..|s| - 1];
    if |s| == 1 {
      assert DigitsValue(s) == DigitValue(s[0]);
    } else {
      ShowParse(init);
      DigitsValuePositive(init);
      var v := DigitsValue(s);
      assert v / 10 == DigitsValue(init);
      assert v % 10 == DigitValue(s[|s| - 1]);
      assert s == init + [s[|s| - 1]];
    }
  }

  /** A digit text whose leading digit is not zero denotes a positive
      number. */
  lemma {:induction false} DigitsValuePositive(s: string)
    requires |s| > 0 && AllDigits(s) && s[0] != '0'
    ensures DigitsValue(s) >= 1
    decreases |s|
  {
    if |s| > 1 {
      DigitsValuePositive(s[..|s| - 1]);
    }
  }
}

=== FILE: graph.dfy ===
/** `ast_to_graph`: the directed graph drawn for an AST. Each node gets the
    next number of a counter in pre-order, a label made of its type and
    value, an edge from its parent, and joins the leaf set when it has no
    children. */
module Graph {
  import opened Results
  import opened Records

  /** The part of a `networkx` digraph `ast_to_graph` builds: numbered
      labelled nodes and parent-to-child edges, in insertion order, the leaf
      set, and the shared counter. */
  datatype Graph = Graph(nodes: seq<(nat, string)>, edges: seq<(nat, nat)>, leaves: set<nat>, counter: nat)

  /** A node's label before wrapping: its type, then `: ` and its value
      when it has one. */
  function Label(t: Record): string
  {
    t.typeName + (if t.value.Some? then ": " + t.value.value else "")
  }

  /** The empty graph with the counter at `counter`. */
  function Empty(counter: nat): Graph
  {
    Graph([], [], {}, counter)
  }

  /** One call of `ast_to_graph(node, graph, parent, counter, leaf_nodes)`. */
  function Build(t: Record, parent: Option<nat>, g: Graph): Graph
    decreases t
  {
    var id := g.counter;
    var g1 := Graph(g.nodes + [(id, Label(t))],
                    g.edges + (if parent.Some? then [(parent.value, id)] else []),
                    if t.children == [] then g.leaves + {id} else g.leaves,
                    id + 1);
    BuildKids(t.children, id, g1, 0)
  }

  function BuildKids(cs: seq<Record>, parent: nat, g: Graph, i: nat): Graph
    requires i <= |cs|
    decreases cs, |cs| - i
  {
    if i == |cs| then g else BuildKids(cs, parent, Build(cs[i], Some(parent), g), i + 1)
  }

  /** The graph of a whole AST, numbered from 0: the corrected behaviour,
      where every top-level call starts a fresh counter. Node `k` of the
      pre-order gets number `k` and its label, the leaf set is the numbers
      of the childless nodes, and every node but the root has exactly one
      incoming edge (the `j`-th edge ends at `j + 1`) from an earlier
      node. */
  function AstToGraph(t: Record): (r: Graph)
    ensures r.counter == |PreOrder(t)|
    ensures r.nodes == Numbered(PreOrder(t), 0)
    ensures r.leaves == LeafIds(PreOrder(t), 0)
    ensures |r.edges| == |PreOrder(t)| - 1 && Forward(r.edges, 1)
  {
    BuildNumbers(t, None, Empty(0));
    BuildLeaves(t, None, Empty(0));
    BuildEdges(t, None, Empty(0));
    var r := Build(t, None, Empty(0));
    assert r.edges[0..] == r.edges;
    r
  }

  /** As written, the counter is a default argument shared by every call
      that does not pass one, so a call starts where the previous call
      left it. The graphs of successive top-level calls: */
  function PlotsAsWritten(ts: seq<Record>, counter: nat): (gs: seq<Graph>)
    ensures |gs| == |ts|
    decreases |ts|
  {
    if ts == [] then []
    else
      var g := Build(ts[0], None, Empty(counter));
      [g] + PlotsAsWritten(ts[1..], g.counter)
  }

  /** Reference numbering: node `k` of a list gets number `c + k`. */
  function Numbered(ns: seq<Record>, c: nat): (r: seq<(nat, string)>)
    ensures |r| == |ns|
    ensures forall k :: 0 <= k < |ns| ==> r[k] == (c + k, Label(ns[k]))
  {
    seq(|ns|, k requires 0 <= k < |ns| => (c + k, Label(ns[k])))
  }

  /** Reference leaf set: the numbers of the childless nodes of a list. */
  function LeafIds(ns: seq<Record>, c: nat): set<nat>
  {
    set k | 0 <= k < |ns| && ns[k].children == [] :: c + k
  }

  /** The `j`-th edge of a list ends at node `c + j` and leaves from an
      earlier node. */
  predicate Forward(es: seq<(nat, nat)>, c: nat)
  {
    forall j :: 0 <= j < |es| ==> es[j].1 == c + j && es[j].0 < es[j].1
  }

  lemma NumberedAppend(a: seq<Record>, b: seq<Record>, c: nat)
    ensures Numbered(a + b, c) == Numbered(a, c) + Numbered(b, c + |a|)
  {
  }

  lemma LeafIdsAppend(a: seq<Record>, b: seq<Record>, c: nat)
    ensures LeafIds(a + b, c) == LeafIds(a, c) + LeafIds(b, c + |a|)
  {
    var ab := a + b;
    forall x | x in LeafIds(ab, c)
      ensures x in LeafIds(a, c) + LeafIds(b, c + |a|)
    {
      var k :| 0 <= k < |ab| && ab[k].children == [] && x == c + k;
      if k >= |a| {
        assert b[k - |a|] == ab[k];
      }
    }
    forall x | x in LeafIds(b, c + |a|)
      ensures x in LeafIds(ab, c)
    {
      var k :| 0 <= k < |b| && b[k].children == [] && x == c + |a| + k;
      assert ab[|a| + k] == b[k];
    }
    forall x | x in LeafIds(a, c)
      ensures x in LeafIds(ab, c)
    {
      var k :| 0 <= k < |a| && a[k].children == [] && x == c + k;
      assert ab[k] == a[k];
    }
  }

  lemma LeafIdsSingle(t: Record, c: nat)
    ensures LeafIds([t], c) == if t.children == [] then {c} else {}
  {
    if t.children == [] {
      assert [t][0] == t;
      assert c + 0 in LeafIds([t], c);
    }
  }

  lemma ForwardAppend(a: seq<(nat, nat)>, b: seq<(nat, nat)>, c: nat)
    requires Forward(a, c) && Forward(b, c + |a|)
    ensures Forward(a + b, c)
  {
    forall j | 0 <= j < |a + b|
      ensures (a + b)[j].1 == c + j && (a + b)[j].0 < (a + b)[j].1
    {
      if j >= |a| {
        assert (a + b)[j] == b[j - |a|];
      }
    }
  }

  /** What one call adds to the nodes: the subtree's nodes numbered
      consecutively from the counter in pre-order and labelled by `Label`,
      after the nodes already there; the counter advances by the subtree's
      size. */
  lemma {:induction false} BuildNumbers(t: Record, parent: Option<nat>, g: Graph)
    ensures var r := Build(t, parent, g);
            && r.counter == g.counter + |PreOrder(t)|
            && r.nodes == g.nodes + Numbered(PreOrder(t), g.counter)
    decreases t
  {
    var c := g.counter;
    var g1 := Graph(g.nodes + [(c, Label(t))],
                    g.edges + (if parent.Some? then [(parent.value, c)] else []),
                    if t.children == [] then g.leaves + {c} else g.leaves,
                    c + 1);
    assert Build(t, parent, g) == BuildKids(t.children, c, g1, 0);
    var Q := PreOrderKids(t.children, 0);
    assert PreOrder(t) == [t] + Q;
    BuildKidsNumbers(t.children, c, g1, 0);
    NumberedAppend([t], Q, c);
  }

  lemma {:induction false} BuildKidsNumbers(cs: seq<Record>, parent: nat, g: Graph, i: nat)
    requires i <= |cs|
    ensures var r := BuildKids(cs, parent, g, i);
            && r.counter == g.counter + |PreOrderKids(cs, i)|
            && r.nodes == g.nodes + Numbered(PreOrderKids(cs, i), g.counter)
    decreases cs, |cs| - i
  {
    if i == |cs| {
      assert Numbered([], g.counter) == [];
    } else {
      var g1 := Build(cs[i], Some(parent), g);
      BuildNumbers(cs[i], Some(parent), g);
      BuildKidsNumbers(cs, parent, g1, i + 1);
      NumberedAppend(PreOrder(cs[i]), PreOrderKids(cs, i + 1), g.counter);
    }
  }

  /** The leaf set grows by exactly the numbers of the subtree's childless
      nodes. */
  lemma {:induction false} BuildLeaves(t: Record, parent: Option<nat>, g: Graph)
    ensures Build(t, parent, g).leaves == g.leaves + LeafIds(PreOrder(t), g.counter)
    decreases t
  {
    var c := g.counter;
    var g1 := Graph(g.nodes + [(c, Label(t))],
                    g.edges + (if parent.Some? then [(parent.value, c)] else []),
                    if t.children == [] then g.leaves + {c} else g.leaves,
                    c + 1);
    assert Build(t, parent, g) == BuildKids(t.children, c, g1, 0);
    var Q := PreOrderKids(t.children, 0);
    assert PreOrder(t) == [t] + Q;
    BuildKidsLeaves(t.children, c, g1, 0);
    LeafIdsAppend([t], Q, c);
    LeafIdsSingle(t, c);
  }

  lemma {:induction false} BuildKidsLeaves(cs: seq<Record>, parent: nat, g: Graph, i: nat)
    requires i <= |cs|
    ensures BuildKids(cs, parent, g, i).leaves == g.leaves + LeafIds(PreOrderKids(cs, i), g.counter)
    decreases cs, |cs| - i
  {
    if i == |cs| {
      assert LeafIds([], g.counter) == {};
    } else {
      var g1 := Build(cs[i], Some(parent), g);
      BuildLeaves(cs[i], Some(parent), g);
      BuildNumbers(cs[i], Some(parent), g);
      BuildKidsLeaves(cs, parent, g1, i + 1);
      LeafIdsAppend(PreOrder(cs[i]), PreOrderKids(cs, i + 1), g.counter);
    }
  }

  /** What one call adds to the edges: one per node except the call's own
      root when it has no parent, the `j`-th new edge ending at the `j`-th
      new non-root number and leaving from an earlier number, the parent's
      edge first. The edges already there are kept. */
  lemma {:induction false} BuildEdges(t: Record, parent: Option<nat>, g: Graph)
    requires parent.Some? ==> parent.value < g.counter
    ensures var r := Build(t, parent, g);
            var pe := if parent.Some? then 1 else 0;
            && |r.edges| == |g.edges| + |PreOrder(t)| - 1 + pe
            && r.edges[..|g.edges|] == g.edges
            && Forward(r.edges[|g.edges|..], g.counter + 1 - pe)
            && (parent.Some? ==> r.edges[|g.edges|] == (parent.value, g.counter))
    decreases t
  {
    var c := g.counter;
    var pe := if parent.Some? then 1 else 0;
    var mine: seq<(nat, nat)> := if parent.Some? then [(parent.value, c)] else [];
    var g1 := Graph(g.nodes + [(c, Label(t))],
                    g.edges + mine,
                    if t.children == [] then g.leaves + {c} else g.leaves,
                    c + 1);
    var r := BuildKids(t.children, c, g1, 0);
    assert r == Build(t, parent, g);
    assert |PreOrder(t)| == 1 + |PreOrderKids(t.children, 0)|;
    BuildKidsEdges(t.children, c, g1, 0);
    var kidsE := r.edges[|g1.edges|..];
    assert r.edges[..|g.edges|] == g.edges;
    assert r.edges[|g.edges|..] == mine + kidsE;
    assert Forward(mine, c + 1 - pe);
    ForwardAppend(mine, kidsE, c + 1 - pe);
  }

  lemma {:induction false} BuildKidsEdges(cs: seq<Record>, parent: nat, g: Graph, i: nat)
    requires i <= |cs| && parent < g.counter
    ensures var r := BuildKids(cs, parent, g, i);
            && |r.edges| == |g.edges| + |PreOrderKids(cs, i)|
            && r.edges[..|g.edges|] == g.edges
            && Forward(r.edges[|g.edges|..], g.counter)
    decreases cs, |cs| - i
  {
    if i == |cs| {
      assert Forward(g.edges[|g.edges|..], g.counter);
    } else {
      var c := g.counter;
      var g1 := Build(cs[i], Some(parent), g);
      BuildEdges(cs[i], Some(parent), g);
      BuildNumbers(cs[i], Some(parent), g);
      BuildKidsEdges(cs, parent, g1, i + 1);
      var r := BuildKids(cs, parent, g1, i + 1);
      var e1 := g1.edges[|g.edges|..];
      var e2 := r.edges[|g1.edges|..];
      assert r.edges[..|g.edges|] == g.edges;
      assert r.edges[|g.edges|..] == e1 + e2;
      ForwardAppend(e1, e2, c);
    }
  }

  /** Inside the children's calls, child `i`'s edge from the parent is the
      first edge its call adds, and it ends at the number child `i` gets. */
  lemma {:induction false} KidsParentEdge(cs: seq<Record>, parent: nat, g: Graph, j: nat, i: nat)
    requires j <= i < |cs| && parent < g.counter
    ensures Before(cs, j) <= Before(cs, i)
    ensures var r := BuildKids(cs, parent, g, j);
            var d := Before(cs, i) - Before(cs, j);
            |g.edges| + d < |r.edges| && r.edges[|g.edges| + d] == (parent, g.counter + d)
    decreases |cs| - j
  {
    var g1 := Build(cs[j], Some(parent), g);
    BuildEdges(cs[j], Some(parent), g);
    BuildNumbers(cs[j], Some(parent), g);
    BuildKidsEdges(cs, parent, g1, j + 1);
    var r := BuildKids(cs, parent, g1, j + 1);
    assert r.edges[..|g1.edges|] == g1.edges;
    if j < i {
      BeforeGrows(cs, j, i);
      KidsParentEdge(cs, parent, g1, j + 1, i);
    } else {
      assert r.edges[|g.edges|] == g1.edges[|g.edges|];
    }
  }

  /** Child `i` of the node numbered `c + k` is numbered `c + m`, where `m`
      is its place in the subtree's pre-order, and the edge between them is
      the one that ends at `c + m`. */
  lemma {:induction false} BuildChildEdge(t: Record, parent: Option<nat>, g: Graph, k: nat, i: nat)
    requires parent.Some? ==> parent.value < g.counter
    requires k < |PreOrder(t)| && i < |PreOrder(t)[k].children|
    ensures var r := Build(t, parent, g);
            var P := PreOrder(t);
            var m := k + 1 + Before(P[k].children, i);
            var pe := if parent.Some? then 1 else 0;
            && m < |P| && P[m] == P[k].children[i]
            && |g.edges| + m - 1 + pe < |r.edges|
            && r.edges[|g.edges| + m - 1 + pe] == (g.counter + k, g.counter + m)
    decreases t
  {
    var c := g.counter;
    var g1 := Graph(g.nodes + [(c, Label(t))],
                    g.edges + (if parent.Some? then [(parent.value, c)] else []),
                    if t.children == [] then g.leaves + {c} else g.leaves,
                    c + 1);
    assert Build(t, parent, g) == BuildKids(t.children, c, g1, 0);
    var Q := PreOrderKids(t.children, 0);
    assert PreOrder(t) == [t] + Q;
    if k == 0 {
      KidsLayout(t.children, 0, i);
      KidsParentEdge(t.children, c, g1, 0, i);
    } else {
      assert PreOrder(t)[k] == Q[k - 1];
      BuildKidsChildEdge(t.children, c, g1, 0, k - 1, i);
    }
  }

  lemma {:induction false} BuildKidsChildEdge(cs: seq<Record>, parent: nat, g: Graph, j: nat, k: nat, i: nat)
    requires j <= |cs| && parent < g.counter
    requires k < |PreOrderKids(cs, j)| && i < |PreOrderKids(cs, j)[k].children|
    ensures var r := BuildKids(cs, parent, g, j);
            var Q := PreOrderKids(cs, j);
            var m := k + 1 + Before(Q[k].children, i);
            && m < |Q| && Q[m] == Q[k].children[i]
            && |g.edges| + m < |r.edges|
            && r.edges[|g.edges| + m] == (g.counter + k, g.counter + m)
    decreases cs, |cs| - j
  {
    var P := PreOrder(cs[j]);
    var Q := PreOrderKids(cs, j);
    assert Q == P + PreOrderKids(cs, j + 1);
    var g1 := Build(cs[j], Some(parent), g);
    BuildEdges(cs[j], Some(parent), g);
    BuildNumbers(cs[j], Some(parent), g);
    BuildKidsEdges(cs, parent, g1, j + 1);
    var r := BuildKids(cs, parent, g1, j + 1);
    assert r.edges[..|g1.edges|] == g1.edges;
    if k < |P| {
      assert Q[k] == P[k];
      BuildChildEdge(cs[j], Some(parent), g, k, i);
      var m := k + 1 + Before(P[k].children, i);
      assert Q[m] == P[m];
      assert r.edges[|g.edges| + m] == g1.edges[|g.edges| + m];
    } else {
      assert Q[k] == PreOrderKids(cs, j + 1)[k - |P|];
      BuildKidsChildEdge(cs, parent, g1, j + 1, k - |P|, i);
    }
  }

  /** In the graph of an AST, the edge ending at child `i` of node `k`
      leaves from `k`: the drawn edges are exactly the tree's parent links. */
  lemma {:induction false} AstToGraphLinksParents(t: Record, k: nat, i: nat)
    requires k < |PreOrder(t)| && i < |PreOrder(t)[k].children|
    ensures var P := PreOrder(t);
            var m := k + 1 + Before(P[k].children, i);
            var r := AstToGraph(t);
            m < |P| && P[m] == P[k].children[i] && m - 1 < |r.edges| && r.edges[m - 1] == (k, m)
  {
    BuildChildEdge(t, None, Empty(0), k, i);
  }

  /** As written, a second top-level call does not start at 0: its root is
      numbered after every node of the first tree, while the corrected
      `AstToGraph` numbers each root 0. */
  lemma {:induction false} CounterLeaksAcrossCalls(first: Record, second: Record)
    ensures var gs := PlotsAsWritten([first, second], 0);
            && |gs| == 2 && |gs[1].nodes| > 0 && |AstToGraph(second).nodes| > 0
            && gs[1].nodes[0].0 == |PreOrder(first)| > 0
            && AstToGraph(second).nodes[0].0 == 0
  {
    var g0 := Build(first, None, Empty(0));
    BuildNumbers(first, None, Empty(0));
    BuildNumbers(second, None, Empty(g0.counter));
    BuildNumbers(second, None, Empty(0));
    assert [first, second][1..] == [second];
    assert PlotsAsWritten([second], g0.counter)
           == [Build(second, None, Empty(g0.counter))] + PlotsAsWritten([], Build(second, None, Empty(g0.counter)).counter);
  }
}

=== FILE: lexer.dfy ===
/** The scanner `lexer.lex(source_code)` runs in `tokenize_file`, with the
    terminals of `create_lexer`: skip whitespace and `//` comments, emit one
    `(kind, lexeme)` pair per token, and give up on the first character no
    pattern matches. */
module Lexer {
  import opened Results
  import opened Tokens

  /** The first position at or after `i` whose character fails `p`, or the
      end of the text: the end of a greedy `p*` match starting at `i`. */
  function ScanWhile(s: string, i: nat, p: char -> bool): (j: nat)
    requires i <= |s|
    ensures i <= j <= |s|
    ensures forall k | i <= k < j :: p(s[k])
    ensures j == |s| || !p(s[j])
    decreases |s| - i
  {
    if i == |s| || !p(s[i]) then i else ScanWhile(s, i + 1, p)
  }

  /** A position the lexer cannot get past: its character starts no pattern
      and no ignored run, or it opens a string literal never closed. */
  predicate Blocked(s: string, i: nat)
    requires i < |s|
  {
    || (!IsSpace(s[i]) && !IsIdentStart(s[i]) && !IsDigit(s[i]) && s[i] != '"' && PunctKind(s[i]).None?)
    || (s[i] == '"' && forall k | i < k < |s| :: s[k] != '"')
  }

  /** What the lexer does at one position. */
  datatype Step = Skip(next: nat) | Emit(token: Token, next: nat) | Stuck

  /** `\s+` at `i`. */
  function SkipSpace(s: string, i: nat): (j: nat)
    requires i < |s| && IsSpace(s[i])
    ensures i < j <= |s| && Settled(s[i..j]) && Trivia(s[i..j])
    ensures forall k | i <= k < j :: IsSpace(s[k])
    ensures j == |s| || !IsSpace(s[j])
  {
    var j := ScanWhile(s, i + 1, IsSpace);
    SpaceRunIsSettled(s[i..j]);
    SettledIsTrivia(s[i..j], false);
    j
  }

  /** `//.*` at `i`: up to the next line break, which is left for the
      whitespace rule. */
  function SkipComment(s: string, i: nat): (j: nat)
    requires i + 1 < |s| && s[i] == '/' && s[i + 1] == '/'
    ensures i + 2 <= j <= |s| && Trivia(s[i..j])
    ensures forall k | i + 2 <= k < j :: s[k] != '\n'
    ensures j == |s| || s[j] == '\n'
  {
    var j := ScanWhile(s, i + 2, NotNewline);
    CommentIsTrivia(s[i..j]);
    j
  }

  /** `"[^"]*"` at `i`: the literal ends at the first quote after the
      opening one; with no such quote there is no match. */
  function LexString(s: string, i: nat): (r: Step)
    requires i < |s| && s[i] == '"'
    ensures r.Stuck? <==> forall k | i < k < |s| :: s[k] != '"'
    ensures r.Emit? ==> i < r.next <= |s| && r.token == Token(STRING_LITERAL, s[i..r.next])
                        && IsStringLiteral(r.token.lexeme)
    ensures !r.Skip?
  {
    var j := ScanWhile(s, i + 1, NotQuote);
    if j == |s| then Stuck
    else Emit(Token(STRING_LITERAL, s[i..j + 1]), j + 1)
  }

  /** `[a-zA-Z_][a-zA-Z0-9_]*` at `i`, as long as possible. */
  function LexIdentifier(s: string, i: nat): (j: nat)
    requires i < |s| && IsIdentStart(s[i])
    ensures i < j <= |s| && IsIdentifier(s[i..j])
    ensures j == |s| || !Extends(IDENTIFIER, s[i..j], s[j])
  {
    ScanWhile(s, i + 1, IsIdentChar)
  }

  /** `\d+(\.\d*)?` at `i`, as long as possible: the digits, then a point
      and the digits after it when a point follows. */
  function LexNumber(s: string, i: nat): (j: nat)
    requires i < |s| && IsDigit(s[i])
    ensures i < j <= |s| && IsNumber(s[i..j])
    ensures j == |s| || !Extends(NUMBER, s[i..j], s[j])
  {
    var j := ScanWhile(s, i + 1, IsDigit);
    if j < |s| && s[j] == '.' then
      var k := ScanWhile(s, j + 1, IsDigit);
      PointNumber(s[i..k], j - i);
      k
    else
      DigitsNumber(s[i..j]);
      j
  }

  /** Digits around one point make a number with that one point. */
  lemma PointNumber(w: string, p: nat)
    requires 0 < p < |w| && w[p] == '.'
    requires forall m | 0 <= m < |w| && m != p :: IsDigit(w[m])
    ensures IsNumber(w) && exists m | 0 <= m < |w| :: w[m] == '.'
  {
  }

  /** Digits alone make a number without a point. */
  lemma DigitsNumber(w: string)
    requires |w| >= 1 && forall m | 0 <= m < |w| :: IsDigit(w[m])
    ensures IsNumber(w) && forall m | 0 <= m < |w| :: w[m] != '.'
  {
  }

  /** One move of the lexer at position `i`. The patterns' first characters
      do not overlap, except that `//` opens a comment where a single `/`
      is DIVIDE (the comment pattern is the longer one, so it is tried
      first). */
  function StepAt(s: string, i: nat): (r: Step)
    requires i < |s|
    ensures r.Skip? ==> i < r.next <= |s| && Trivia(s[i..r.next])
                        && (Settled(s[i..r.next]) || r.next == |s| || s[r.next] == '\n')
    ensures r.Emit? ==> i < r.next <= |s| && r.token.lexeme == s[i..r.next]
                        && Matches(r.token.kind, r.token.lexeme)
                        && (r.next == |s| || !Extends(r.token.kind, r.token.lexeme, s[r.next]))
    ensures r.Stuck? <==> Blocked(s, i)
  {
    var c := s[i];
    if IsSpace(c) then
      Skip(SkipSpace(s, i))
    else if c == '/' && i + 1 < |s| && s[i + 1] == '/' then
      Skip(SkipComment(s, i))
    else if c == '"' then
      LexString(s, i)
    else if IsIdentStart(c) then
      var j := LexIdentifier(s, i);
      Emit(Token(IDENTIFIER, s[i..j]), j)
    else if IsDigit(c) then
      var j := LexNumber(s, i);
      Emit(Token(NUMBER, s[i..j]), j)
    else if PunctKind(c).Some? then
      Emit(Token(PunctKind(c).value, [c]), i + 1)
    else
      Stuck
  }

  /** A token together with the span of the text it was read from, as the
      lexer's tokens carry `start_pos` and `end_pos`. */
  datatype Lexed = Lexed(token: Token, start: nat, end: nat)

  /** Token `l` read after the text from `from` on: that text up to the
      token is settled, the lexeme is the text of the token's span and
      matches its kind's pattern, and the next character could not have
      made the token longer. */
  predicate Placed(s: string, from: nat, l: Lexed)
  {
    && from <= l.start < l.end <= |s|
    && Settled(s[from..l.start])
    && s[l.start..l.end] == l.token.lexeme
    && Matches(l.token.kind, l.token.lexeme)
    && (l.end == |s| || !Extends(l.token.kind, l.token.lexeme, s[l.end]))
  }

  /** `ls` lays out `s[i..]`: each token placed right after the previous
      one's span, in input order, and only skippable text after the last
      one. */
  predicate LaysOut(s: string, i: nat, ls: seq<Lexed>)
    decreases |ls|
  {
    if ls == [] then i <= |s| && Trivia(s[i..])
    else Placed(s, i, ls[0]) && LaysOut(s, ls[0].end, ls[1..])
  }

  function TokensOf(ls: seq<Lexed>): (ts: seq<Token>)
    ensures |ts| == |ls| && forall k | 0 <= k < |ls| :: ts[k] == ls[k].token
  {
    seq(|ls|, k requires 0 <= k < |ls| => ls[k].token)
  }

  /** The tokens of `s` from position `i` on, with their spans, or `None`
      when the lexer raises: the exception aborts the whole list, so no
      partial list ever comes back. */
  function LexFrom(s: string, i: nat): (r: Option<seq<Lexed>>)
    requires i <= |s|
    ensures r.Some? ==> LaysOut(s, i, r.value)
    ensures r.None? ==> exists j | i <= j < |s| :: Blocked(s, j)
    decreases |s| - i
  {
    if i == |s| then
      assert s[i..] == [];
      Some([])
    else
      match StepAt(s, i)
      case Stuck => None
      case Skip(j) =>
        var rest := LexFrom(s, j);
        if rest.Some? then
          SkipKeepsLayout(s, i, j, rest.value);
          rest
        else
          rest
      case Emit(t, j) =>
        var rest := LexFrom(s, j);
        if rest.Some? then
          var ls := [Lexed(t, i, j)] + rest.value;
          assert s[i..i] == [] && ls[0] == Lexed(t, i, j) && ls[1..] == rest.value;
          Some(ls)
        else
          None
  }

  /** Skippable text in front of a laid-out suffix joins the first gap. */
  lemma SkipKeepsLayout(s: string, i: nat, j: nat, ls: seq<Lexed>)
    requires i <= j <= |s| && Trivia(s[i..j]) && LaysOut(s, j, ls)
    requires Settled(s[i..j]) || j == |s| || s[j] == '\n'
    ensures LaysOut(s, i, ls)
  {
    if ls == [] {
      assert s[i..] == s[i..j] + s[j..];
      TriviaConcat(s[i..j], s[j..]);
    } else {
      var e := ls[0].start;
      assert s[i..e] == s[i..j] + s[j..e];
      if Settled(s[i..j]) {
        SettledInConcat(s[i..j], s[j..e], false);
      } else {
        KindByFirst(ls[0].token.kind, ls[0].token.lexeme);
        assert s[e] == ls[0].token.lexeme[0];
        assert e > j && s[j..e][0] == s[j];
        TriviaThenLine(s[i..j], s[j..e], false);
      }
    }
  }

  /** `tokenize_file` without the file reading: the `(type, value)` list
      of a whole text, or `None`. */
  function Tokenize(s: string): (r: Option<seq<Token>>)
    ensures r.Some? ==> exists ls :: LaysOut(s, 0, ls) && TokensOf(ls) == r.value
    ensures r.None? ==> exists j | 0 <= j < |s| :: Blocked(s, j)
  {
    match LexFrom(s, 0)
    case None => None
    case Some(ls) => Some(TokensOf(ls))
  }

  /** Input made only of whitespace and `//` comments yields no tokens, and
      only such input does. */
  lemma {:induction false} TriviaIffNoTokens(s: string)
    ensures Tokenize(s) == Some([]) <==> Trivia(s)
  {
    if Trivia(s) {
      assert s[0..] == s;
      TriviaSkipsToEnd(s, 0);
    }
    if Tokenize(s) == Some([]) {
      var ls := LexFrom(s, 0).value;
      assert |ls| == 0;
      assert s[0..] == s;
    }
  }

  /** From a position where only skippable text is left, the lexer emits
      nothing and succeeds. */
  lemma {:induction false} TriviaSkipsToEnd(s: string, i: nat)
    requires i <= |s| && Trivia(s[i..])
    ensures LexFrom(s, i) == Some([])
    decreases |s| - i
  {
    if i < |s| {
      var w := s[i..];
      assert w[0] == s[i];
      if IsSpace(s[i]) {
        var j := ScanWhile(s, i + 1, IsSpace);
        SpaceRunKeepsTrivia(s, i, j);
        TriviaSkipsToEnd(s, j);
      } else {
        CommentKeepsTrivia(s, i);
        TriviaSkipsToEnd(s, ScanWhile(s, i + 2, NotNewline));
      }
    }
  }

  /** Skipping a whitespace run leaves skippable text skippable. */
  lemma {:induction false} SpaceRunKeepsTrivia(s: string, i: nat, j: nat)
    requires i <= j <= |s| && Trivia(s[i..])
    requires forall m | i <= m < j :: IsSpace(s[m])
    ensures Trivia(s[j..])
    decreases j - i
  {
    if i < j {
      var w := s[i..];
      assert w[0] == s[i];
      TriviaDropSpace(w);
      assert w[1..] == s[i + 1..];
      SpaceRunKeepsTrivia(s, i + 1, j);
    }
  }

  /** Skippable text that does not start with whitespace starts with a
      comment, and skipping that comment leaves skippable text. */
  lemma CommentKeepsTrivia(s: string, i: nat)
    requires i < |s| && Trivia(s[i..]) && !IsSpace(s[i])
    ensures i + 1 < |s| && s[i] == '/' && s[i + 1] == '/'
    ensures Trivia(s[ScanWhile(s, i + 2, NotNewline)..])
  {
    var w := s[i..];
    assert w[0] == s[i] && w[1] == s[i + 1];
    var j := ScanWhile(s, i + 2, NotNewline);
    TriviaAfterComment(w, j - i);
    assert w[j - i..] == s[j..];
  }

  /** `ScanWhile` stops exactly at the end of a maximal run. */
  lemma {:induction false} ScanWhileExact(s: string, i: nat, p: char -> bool, e: nat)
    requires i <= e <= |s| && forall k | i <= k < e :: p(s[k])
    requires e == |s| || !p(s[e])
    ensures ScanWhile(s, i, p) == e
    decreases e - i
  {
    if i < e {
      ScanWhileExact(s, i + 1, p, e);
    }
  }

  /** Settled text loses nothing by dropping leading whitespace. */
  lemma {:induction false} SettledDropSpaces(w: string, k: nat)
    requires k <= |w| && Settled(w) && forall m | 0 <= m < k :: IsSpace(w[m])
    ensures Settled(w[k..])
    decreases k
  {
    if k > 0 {
      assert w[1..][k - 1..] == w[k..];
      SettledDropSpaces(w[1..], k - 1);
    }
  }

  /** A longest-match identifier at `i` ends where `LexIdentifier` stops. */
  lemma IdentifierAt(s: string, i: nat, j: nat)
    requires i < j <= |s| && IsIdentifier(s[i..j])
    requires j == |s| || !IsIdentChar(s[j])
    ensures LexIdentifier(s, i) == j
  {
    assert forall m | i + 1 <= m < j :: s[m] == s[i..j][m - i];
    ScanWhileExact(s, i + 1, IsIdentChar, j);
  }

  /** A longest-match number at `i` ends where `LexNumber` stops. */
  lemma NumberAt(s: string, i: nat, j: nat)
    requires i < j <= |s| && IsNumber(s[i..j])
    requires j == |s| || !Extends(NUMBER, s[i..j], s[j])
    ensures LexNumber(s, i) == j
  {
    var w := s[i..j];
    assert forall m | i <= m < j :: s[m] == w[m - i];
    if m :| 0 <= m < |w| && w[m] == '.' {
      assert forall k | 0 <= k < |w| && k != m :: IsDigit(w[k]);
      ScanWhileExact(s, i + 1, IsDigit, i + m);
      ScanWhileExact(s, i + m + 1, IsDigit, j);
    } else {
      ScanWhileExact(s, i + 1, IsDigit, j);
    }
  }

  /** A string literal at `i` is the one `LexString` reads. */
  lemma StringAt(s: string, i: nat, j: nat)
    requires i < j <= |s| && IsStringLiteral(s[i..j])
    ensures LexString(s, i) == Emit(Token(STRING_LITERAL, s[i..j]), j)
  {
    var w := s[i..j];
    assert forall m | i <= m < j :: s[m] == w[m - i];
    ScanWhileExact(s, i + 1, NotQuote, j - 1);
  }

  /** A longest-match token placed at `i` is the token the lexer emits
      there. */
  lemma TokenAt(s: string, i: nat, l: Lexed)
    requires Placed(s, i, l) && l.start == i
    ensures StepAt(s, i) == Emit(l.token, l.end)
  {
    var w, j := l.token.lexeme, l.end;
    KindByFirst(l.token.kind, w);
    assert s[i] == w[0];
    match l.token.kind
    case IDENTIFIER =>
      IdentifierAt(s, i, j);
    case NUMBER =>
      NumberAt(s, i, j);
    case STRING_LITERAL =>
      StringAt(s, i, j);
    case _ =>
      assert j == i + 1 && w == [s[i]];
  }

  /** A layout whose first gap opens with whitespace is still a layout
      once the lexer has skipped that whitespace run. */
  lemma GapSpaceSkipped(s: string, i: nat, ls: seq<Lexed>)
    requires i < |s| && IsSpace(s[i]) && ls != [] && Placed(s, i, ls[0])
    ensures ScanWhile(s, i + 1, IsSpace) <= ls[0].start
    ensures Placed(s, ScanWhile(s, i + 1, IsSpace), ls[0])
  {
    var e := ls[0].start;
    var j := ScanWhile(s, i + 1, IsSpace);
    KindByFirst(ls[0].token.kind, ls[0].token.lexeme);
    assert s[e] == ls[0].token.lexeme[0];
    var g := s[i..e];
    assert forall m | 0 <= m < j - i :: g[m] == s[i + m];
    SettledDropSpaces(g, j - i);
    assert g[j - i..] == s[j..e];
  }

  /** A layout whose first gap opens with a `//` comment is still a layout
      once the lexer has skipped that comment: the gap is settled, so the
      comment closes before the token. */
  lemma GapCommentSkipped(s: string, i: nat, ls: seq<Lexed>)
    requires ls != [] && Placed(s, i, ls[0]) && i < ls[0].start && !IsSpace(s[i])
    ensures i + 1 < |s| && s[i] == '/' && s[i + 1] == '/'
    ensures ScanWhile(s, i + 2, NotNewline) < ls[0].start
    ensures Placed(s, ScanWhile(s, i + 2, NotNewline), ls[0])
  {
    var e := ls[0].start;
    var g := s[i..e];
    assert g[0] == s[i] && g[1] == s[i + 1];
    var j := ScanWhile(s, i + 2, NotNewline);
    var c := if j <= e then j - i else |g|;
    assert forall m | 2 <= m < c :: g[m] == s[i + m];
    SettledAfterComment(g, c);
    assert g[j - i..] == s[j..e];
  }

  /** The lexer finds every layout: whatever splits `s[i..]` into
      longest-match tokens separated by settled skippable text is what
      `LexFrom` returns. */
  lemma {:induction false} LexComplete(s: string, i: nat, ls: seq<Lexed>)
    requires LaysOut(s, i, ls)
    ensures LexFrom(s, i) == Some(ls)
    decreases |s| - i
  {
    if ls == [] {
      TriviaSkipsToEnd(s, i);
    } else if ls[0].start == i {
      TokenAt(s, i, ls[0]);
      LexComplete(s, ls[0].end, ls[1..]);
      assert [ls[0]] + ls[1..] == ls;
    } else if IsSpace(s[i]) {
      GapSpaceSkipped(s, i, ls);
      LexComplete(s, ScanWhile(s, i + 1, IsSpace), ls);
    } else {
      GapCommentSkipped(s, i, ls);
      LexComplete(s, ScanWhile(s, i + 2, NotNewline), ls);
    }
  }

  /** The whole text: a layout of `s` is exactly what `Tokenize` returns. */
  lemma TokenizeComplete(s: string, ls: seq<Lexed>)
    requires LaysOut(s, 0, ls)
    ensures Tokenize(s) == Some(TokensOf(ls))
  {
    LexComplete(s, 0, ls);
  }

  /** A text has at most one layout: longest match and settled gaps leave
      the lexer no choice. */
  lemma LayoutUnique(s: string, a: seq<Lexed>, b: seq<Lexed>)
    requires LaysOut(s, 0, a) && LaysOut(s, 0, b)
    ensures a == b
  {
    LexComplete(s, 0, a);
    LexComplete(s, 0, b);
  }

  /** The lexer raises exactly on the texts that have no layout. */
  lemma TokenizeFailsIffNoLayout(s: string)
    ensures Tokenize(s).Some? <==> exists ls :: LaysOut(s, 0, ls)
  {
    if ls :| LaysOut(s, 0, ls) {
      TokenizeComplete(s, ls);
      assert exists ls :: LaysOut(s, 0, ls);
    }
  }

  /** A run that starts on a blocked position ends with `None`. */
  lemma BlockedFails(s: string, i: nat)
    requires i < |s| && Blocked(s, i)
    ensures LexFrom(s, i) == None
  {
  }

  /** Started at `j`, the lexer arrives at `i`: every move from `j` on goes
      ahead without getting stuck, and one of them lands exactly on `i`. */
  predicate Reaches(s: string, j: nat, i: nat)
    requires j <= i <= |s|
    decreases i - j
  {
    j == i
    || (j < |s| && !StepAt(s, j).Stuck? && StepAt(s, j).next <= i
        && Reaches(s, StepAt(s, j).next, i))
  }

  /** A blocked position the lexer reaches ends the whole run with `None`:
      the tokens read on the way there are dropped with it, and from the
      start of the text `tokenize_file` gets no list at all. */
  lemma {:induction false} BlockedAbortsRun(s: string, j: nat, i: nat)
    requires j <= i < |s| && Reaches(s, j, i) && Blocked(s, i)
    ensures LexFrom(s, j) == None
    ensures j == 0 ==> Tokenize(s) == None
    decreases i - j
  {
    if j < i {
      BlockedAbortsRun(s, StepAt(s, j).next, i);
    }
  }

  /** `s = "abc` has an unterminated string literal: the lexer fails, and
      the two tokens read before it are not returned. */
  lemma {:induction false} UnterminatedStringExample()
    ensures Tokenize("s = \"abc") == None
  {
    var s := "s = \"abc";
    assert Blocked(s, 4);
    assert LexFrom(s, 4) == None;
    assert StepAt(s, 3) == Skip(4);
    assert LexFrom(s, 3) == None;
    assert StepAt(s, 2).Emit?;
    assert LexFrom(s, 2) == None;
    assert StepAt(s, 1) == Skip(2);
    assert LexFrom(s, 1) == None;
    assert StepAt(s, 0).Emit?;
  }
}

=== FILE: records.dfy ===
/** The fields an `ASTNode` object carries once built (`type`, `value`,
    `children`), which is all the two printers and the graph numbering
    look at, and the pre-order walk over them. */
module Records {
  import opened Results
  import opened Ast
  import Decimal

  /** An `ASTNode` as the printers see it: its type name, `str(value)` or
      `None`, and its `children` list. */
  datatype Record = Record(typeName: string, value: Option<string>, children: seq<Record>)

  function TypeName(n: Node): string
  {
    match n
    case Number(_) => "Number"
    case Identifier(_) => "Identifier"
    case BinaryOp(_, _, _) => "BinaryOp"
    case Declaration(_, _) => "Declaration"
    case Assignment(_, _, _) => "Assignment"
    case CompoundStatement(_) => "CompoundStatement"
  }

  /** The object the transformer builds for a node. Only `BinaryOp` and
      `CompoundStatement` put nodes in `children`; a declaration or an
      assignment keeps everything in its `value` dictionary, shown here in a
      fixed form (the right-hand side by its type name alone). */
  function View(n: Node): (r: Record)
    ensures r.typeName == TypeName(n)
    ensures r.value.None? <==> n.CompoundStatement?
    ensures n.Number? ==> r.value == Some(Decimal.IntToString(n.num))
    ensures n.Identifier? ==> r.value == Some(n.name)
    ensures n.BinaryOp? ==> r.value == Some(n.op) && r.children == [View(n.left), View(n.right)]
    ensures n.CompoundStatement? ==>
              |r.children| == |n.statements| && forall k | 0 <= k < |n.statements| :: r.children[k] == View(n.statements[k])
    ensures !n.BinaryOp? && !n.CompoundStatement? ==> r.children == []
    decreases n
  {
    match n
    case Number(v) => Record("Number", Some(Decimal.IntToString(v)), [])
    case Identifier(x) => Record("Identifier", Some(x), [])
    case BinaryOp(op, l, r) => Record("BinaryOp", Some(op), [View(l), View(r)])
    case Declaration(ty, x) =>
      Record("Declaration", Some("{'type': '" + ty + "', 'name': '" + x + "'}"), [])
    case Assignment(ty, x, v) =>
      Record("Assignment", Some("{'type': '" + ty + "', 'name': '" + x + "', 'value': <" + TypeName(v) + ">}"), [])
    case CompoundStatement(ss) => Record("CompoundStatement", None, ViewAll(ss))
  }

  function ViewAll(ss: seq<Node>): (rs: seq<Record>)
    ensures |rs| == |ss| && forall k | 0 <= k < |ss| :: rs[k] == View(ss[k])
    decreases ss
  {
    if ss == [] then [] else [View(ss[0])] + ViewAll(ss[1..])
  }

  /** A node met on a walk, with the `is_last` flag of each node on the way
      down to it: the root's own flag first, the node's own flag last. */
  datatype Visit = Visit(node: Record, path: seq<bool>)

  /** Pre-order walk: the node, then the walk of each child in stored
      order, the last child flagged `true` and every other one `false`. */
  function Walk(t: Record, path: seq<bool>): seq<Visit>
    decreases t
  {
    [Visit(t, path)] + WalkKids(t.children, path, 0)
  }

  function WalkKids(cs: seq<Record>, path: seq<bool>, i: nat): seq<Visit>
    requires i <= |cs|
    decreases cs, |cs| - i
  {
    if i == |cs| then [] else Walk(cs[i], path + [i == |cs| - 1]) + WalkKids(cs, path, i + 1)
  }

  /** The nodes of a tree in pre-order. */
  function PreOrder(t: Record): (ns: seq<Record>)
    ensures |ns| >= 1 && ns[0] == t
    decreases t
  {
    [t] + PreOrderKids(t.children, 0)
  }

  function PreOrderKids(cs: seq<Record>, i: nat): seq<Record>
    requires i <= |cs|
    decreases cs, |cs| - i
  {
    if i == |cs| then [] else PreOrder(cs[i]) + PreOrderKids(cs, i + 1)
  }

  /** Where child `i`'s nodes start in the pre-order of `cs`: the number of
      nodes in the children before it. */
  function Before(cs: seq<Record>, i: nat): nat
    requires i <= |cs|
  {
    if i == 0 then 0 else Before(cs, i - 1) + |PreOrder(cs[i - 1])|
  }

  /** Children further on start further on: child `i`'s nodes all come
      before where child `k` starts. */
  lemma {:induction false} BeforeGrows(cs: seq<Record>, i: nat, k: nat)
    requires i < k <= |cs|
    ensures Before(cs, i) + |PreOrder(cs[i])| <= Before(cs, k)
    decreases k - i
  {
    if k > i + 1 {
      BeforeGrows(cs, i, k - 1);
    }
  }

  /** The children's pre-order from child `j` on is child `j`'s pre-order,
      then child `j + 1`'s, and so on: child `i` starts `Before(cs, i) -
      Before(cs, j)` places in. */
  lemma {:induction false} KidsLayout(cs: seq<Record>, j: nat, i: nat)
    requires j <= i < |cs|
    ensures Before(cs, j) <= Before(cs, i) < Before(cs, |cs|)
    ensures |PreOrderKids(cs, j)| == Before(cs, |cs|) - Before(cs, j)
    ensures PreOrderKids(cs, j)[Before(cs, i) - Before(cs, j)] == cs[i]
    decreases |cs| - j
  {
    BeforeGrows(cs, i, |cs|);
    if j < i {
      BeforeGrows(cs, j, i);
      KidsLayout(cs, j + 1, i);
      assert PreOrderKids(cs, j)[Before(cs, i) - Before(cs, j)]
             == PreOrderKids(cs, j + 1)[Before(cs, i) - Before(cs, j + 1)];
    } else {
      KidsLength(cs, j);
    }
  }

  lemma {:induction false} KidsLength(cs: seq<Record>, j: nat)
    requires j <= |cs|
    ensures |PreOrderKids(cs, j)| == Before(cs, |cs|) - Before(cs, j)
    decreases |cs| - j
  {
    if j < |cs| {
      KidsLength(cs, j + 1);
      BeforeGrows(cs, j, j + 1);
    }
  }

  /** The walk meets the nodes of the pre-order, in that order, whatever
      flags it starts with. */
  lemma {:induction false} WalkNodes(t: Record, path: seq<bool>)
    ensures |Walk(t, path)| == |PreOrder(t)|
    ensures forall k | 0 <= k < |PreOrder(t)| :: Walk(t, path)[k].node == PreOrder(t)[k]
    decreases t
  {
    WalkKidsNodes(t.children, path, 0);
  }

  lemma {:induction false} WalkKidsNodes(cs: seq<Record>, path: seq<bool>, i: nat)
    requires i <= |cs|
    ensures |WalkKids(cs, path, i)| == |PreOrderKids(cs, i)|
    ensures forall k | 0 <= k < |PreOrderKids(cs, i)| :: WalkKids(cs, path, i)[k].node == PreOrderKids(cs, i)[k]
    decreases cs, |cs| - i
  {
    if i < |cs| {
      WalkNodes(cs[i], path + [i == |cs| - 1]);
      WalkKidsNodes(cs, path, i + 1);
    }
  }

  /** On a walk, child `i` of the node met at position `k` is met at
      position `k + 1 + Before(children, i)`, flagged last exactly when it
      is the last child. */
  lemma {:induction false} WalkChild(t: Record, path: seq<bool>, k: nat, i: nat)
    requires k < |Walk(t, path)| && i < |Walk(t, path)[k].node.children|
    ensures var W := Walk(t, path);
            var cs := W[k].node.children;
            var m := k + 1 + Before(cs, i);
            m < |W| && W[m] == Visit(cs[i], W[k].path + [i == |cs| - 1])
    decreases t
  {
    var W := Walk(t, path);
    if k == 0 {
      var cs := t.children;
      KidsWalkLayout(cs, path, 0, i);
    } else {
      WalkKidsChild(t.children, path, 0, k - 1, i);
    }
  }

  lemma {:induction false} WalkKidsChild(cs: seq<Record>, path: seq<bool>, j: nat, k: nat, i: nat)
    requires j <= |cs| && k < |WalkKids(cs, path, j)| && i < |WalkKids(cs, path, j)[k].node.children|
    ensures var W := WalkKids(cs, path, j);
            var ds := W[k].node.children;
            var m := k + 1 + Before(ds, i);
            m < |W| && W[m] == Visit(ds[i], W[k].path + [i == |ds| - 1])
    decreases cs, |cs| - j
  {
    var first := Walk(cs[j], path + [j == |cs| - 1]);
    var rest := WalkKids(cs, path, j + 1);
    assert WalkKids(cs, path, j) == first + rest;
    if k < |first| {
      WalkChild(cs[j], path + [j == |cs| - 1], k, i);
    } else {
      WalkKidsChild(cs, path, j + 1, k - |first|, i);
    }
  }

  /** The walk of the children from child `j` on reaches child `i` after
      the nodes of the children in between. */
  lemma {:induction false} KidsWalkLayout(cs: seq<Record>, path: seq<bool>, j: nat, i: nat)
    requires j <= i < |cs|
    ensures Before(cs, j) <= Before(cs, i)
    ensures Before(cs, i) - Before(cs, j) < |WalkKids(cs, path, j)|
    ensures WalkKids(cs, path, j)[Before(cs, i) - Before(cs, j)] == Visit(cs[i], path + [i == |cs| - 1])
    decreases |cs| - j
  {
    WalkNodes(cs[j], path + [j == |cs| - 1]);
    if j < i {
      BeforeGrows(cs, j, i);
      KidsWalkLayout(cs, path, j + 1, i);
    }
  }
}

=== FILE: render.dfy ===
/** The two text renderers of an AST: `print_ast` (one indented line per
    node) and `print_ast_as_tree` (box-drawing connectors). Both are
    modelled as the sequence of lines they print, and each is proved equal
    to a flat description over the pre-order walk of `Records.Walk`. */
module Render {
  import opened Results
  import opened Records
  import opened Ast
  import Decimal

  /** The text after `: ` on a `print_ast` line; a missing value prints as
      Python's `None`. */
  function ValueText(v: Option<string>): string
  {
    if v.Some? then v.value else "None"
  }

  /** What `print_ast` prints for a node, after its indentation. */
  function Line(t: Record): string
  {
    t.typeName + ": " + ValueText(t.value)
  }

  /** Two spaces per level of depth. */
  function Spaces(depth: nat): (s: string)
    ensures |s| == 2 * depth
    ensures forall k :: 0 <= k < |s| ==> s[k] == ' '
  {
    if depth == 0 then "" else Spaces(depth - 1) + "  "
  }

  /** `print_ast(node, indent)`: the node's line, then each child one level
      deeper. */
  function Indented(t: Record, indent: string): seq<string>
    decreases t
  {
    [indent + Line(t)] + IndentedKids(t.children, indent + "  ", 0)
  }

  function IndentedKids(cs: seq<Record>, indent: string, i: nat): seq<string>
    requires i <= |cs|
    decreases cs, |cs| - i
  {
    if i == |cs| then [] else Indented(cs[i], indent) + IndentedKids(cs, indent, i + 1)
  }

  /** What `print_ast(root)` prints, one element per printed line (the
      type's `end=""` print and the value's print together). */
  function PrintAst(t: Record): (ls: seq<string>)
    ensures ls == Listing(Walk(t, []), "")
    ensures |ls| == |PreOrder(t)|
  {
    IndentedIsWalk(t, "", []);
    WalkNodes(t, []);
    assert "" + Spaces(0) == "";
    Indented(t, "")
  }

  /** Reference listing: one line per visit, indented by the visit's depth. */
  function Listing(vs: seq<Visit>, indent: string): (ls: seq<string>)
    ensures |ls| == |vs|
    ensures forall k :: 0 <= k < |vs| ==> ls[k] == indent + Spaces(|vs[k].path|) + Line(vs[k].node)
  {
    seq(|vs|, k requires 0 <= k < |vs| => indent + Spaces(|vs[k].path|) + Line(vs[k].node))
  }

  lemma ListingAppend(a: seq<Visit>, b: seq<Visit>, indent: string)
    ensures Listing(a + b, indent) == Listing(a, indent) + Listing(b, indent)
  {
  }

  /** `print_ast` prints exactly one line per node of the walk, in walk
      order, each indented two spaces per level of depth. */
  lemma {:induction false} IndentedIsWalk(t: Record, indent: string, path: seq<bool>)
    ensures Indented(t, indent + Spaces(|path|)) == Listing(Walk(t, path), indent)
    decreases t
  {
    var kids := WalkKids(t.children, path, 0);
    IndentedKidsIsWalk(t.children, indent, path, 0);
    assert indent + Spaces(|path|) + "  " == indent + Spaces(|path| + 1);
    ListingAppend([Visit(t, path)], kids, indent);
  }

  lemma {:induction false} IndentedKidsIsWalk(cs: seq<Record>, indent: string, path: seq<bool>, i: nat)
    requires i <= |cs|
    ensures IndentedKids(cs, indent + Spaces(|path| + 1), i) == Listing(WalkKids(cs, path, i), indent)
    decreases cs, |cs| - i
  {
    if i < |cs| {
      var p := path + [i == |cs| - 1];
      IndentedIsWalk(cs[i], indent, p);
      IndentedKidsIsWalk(cs, indent, path, i + 1);
      ListingAppend(Walk(cs[i], p), WalkKids(cs, path, i + 1), indent);
    }
  }

  /** The lines of `print_ast(root)`: line `k` is the `k`-th node in
      pre-order, indented by two spaces per level. */
  lemma PrintAstListsPreOrder(t: Record)
    ensures PrintAst(t) == Listing(Walk(t, []), "")
    ensures |PrintAst(t)| == |PreOrder(t)|
    ensures forall k :: 0 <= k < |PrintAst(t)| ==> PrintAst(t)[k] == Spaces(|Walk(t, [])[k].path|) + Line(PreOrder(t)[k])
  {
    IndentedIsWalk(t, "", []);
    WalkNodes(t, []);
  }

  /** The connector in front of a node's type: a corner for the last
      sibling, a tee otherwise. */
  function Connector(last: bool): string
  {
    if last then "└── " else "├── "
  }

  /** The rail a node leaves for its descendants' prefix. */
  function Rail(last: bool): string
  {
    if last then "    " else "│   "
  }

  /** `print_ast_as_tree(node, prefix, is_last)`. Every record has a
      `children` attribute, so the value line always uses the tee. */
  function Box(t: Record, prefix: string, last: bool): seq<string>
    decreases t
  {
    var inner := prefix + Rail(last);
    [prefix + Connector(last) + t.typeName]
    + (if t.value.Some? then [inner + "├── " + t.value.value] else [])
    + BoxKids(t.children, inner, 0)
  }

  function BoxKids(cs: seq<Record>, prefix: string, i: nat): seq<string>
    requires i <= |cs|
    decreases cs, |cs| - i
  {
    if i == |cs| then [] else Box(cs[i], prefix, i == |cs| - 1) + BoxKids(cs, prefix, i + 1)
  }

  /** What `print_ast_as_tree(root)` prints, one element per printed
      line. */
  function PrintAstAsTree(t: Record): (ls: seq<string>)
    ensures ls == Drawing(Walk(t, [true]), "")
    ensures |ls| >= 1 && ls[0] == "└── " + t.typeName
  {
    BoxIsWalk(t, "", [], true);
    assert "" + Rails([]) == "";
    assert [] + [true] == [true];
    Box(t, "", true)
  }

  /** The rails of all ancestors' flags, outermost first. */
  function Rails(path: seq<bool>): (s: string)
    ensures |s| == 4 * |path|
  {
    if path == [] then "" else Rails(path[..|path| - 1]) + Rail(path[|path| - 1])
  }

  /** The lines one visit contributes to the box drawing: its type after
      its ancestors' rails and its own connector, then its value, if any,
      one rail deeper. */
  function Entry(v: Visit, prefix: string): seq<string>
  {
    if v.path == [] then []
    else
      var up := v.path[..|v.path| - 1];
      [prefix + Rails(up) + Connector(v.path[|v.path| - 1]) + v.node.typeName]
      + (if v.node.value.Some? then [prefix + Rails(v.path) + "├── " + v.node.value.value] else [])
  }

  /** Reference drawing: the entries of the visits, in walk order. */
  function Drawing(vs: seq<Visit>, prefix: string): seq<string>
  {
    if vs == [] then [] else Entry(vs[0], prefix) + Drawing(vs[1..], prefix)
  }

  lemma {:induction false} DrawingAppend(a: seq<Visit>, b: seq<Visit>, prefix: string)
    ensures Drawing(a + b, prefix) == Drawing(a, prefix) + Drawing(b, prefix)
    decreases |a|
  {
    if a == [] {
      assert a + b == b;
    } else {
      assert (a + b)[0] == a[0];
      assert (a + b)[1..] == a[1..] + b;
      DrawingAppend(a[1..], b, prefix);
    }
  }

  /** Every node of the walk is drawn with its own connector — `└── ` when
      its flag says it is the last child, `├── ` otherwise — behind one
      rail per ancestor, and the nodes appear in walk order. */
  lemma {:induction false} BoxIsWalk(t: Record, prefix: string, path: seq<bool>, last: bool)
    ensures Box(t, prefix + Rails(path), last) == Drawing(Walk(t, path + [last]), prefix)
    decreases t
  {
    var p := path + [last];
    assert p[..|p| - 1] == path;
    assert prefix + Rails(path) + Rail(last) == prefix + Rails(p);
    BoxKidsIsWalk(t.children, prefix, p, 0);
    DrawingAppend([Visit(t, p)], WalkKids(t.children, p, 0), prefix);
    assert Drawing([Visit(t, p)], prefix) == Entry(Visit(t, p), prefix);
  }

  lemma {:induction false} BoxKidsIsWalk(cs: seq<Record>, prefix: string, path: seq<bool>, i: nat)
    requires i <= |cs|
    ensures BoxKids(cs, prefix + Rails(path), i) == Drawing(WalkKids(cs, path, i), prefix)
    decreases cs, |cs| - i
  {
    if i < |cs| {
      var last := i == |cs| - 1;
      BoxIsWalk(cs[i], prefix, path, last);
      BoxKidsIsWalk(cs, prefix, path, i + 1);
      DrawingAppend(Walk(cs[i], path + [last]), WalkKids(cs, path, i + 1), prefix);
    }
  }

  /** The whole drawing of `print_ast_as_tree(root)`: the root is drawn as
      a last child, and every other node as described by `BoxIsWalk`. */
  lemma PrintAstAsTreeIsWalk(t: Record)
    ensures PrintAstAsTree(t) == Drawing(Walk(t, [true]), "")
    ensures PrintAstAsTree(t)[0] == "└── " + t.typeName
  {
    BoxIsWalk(t, "", [], true);
    assert "" + Rails([]) == "";
    assert [] + [true] == [true];
  }

  /** In the drawing of a whole tree, child `i` of any node is drawn with
      `└── ` exactly when it is the node's last child, and with `├── `
      otherwise, behind the rails of the node's own path. */
  lemma {:induction false} ChildConnector(t: Record, k: nat, i: nat)
    requires k < |Walk(t, [true])| && i < |Walk(t, [true])[k].node.children|
    ensures var W := Walk(t, [true]);
            var cs := W[k].node.children;
            var m := k + 1 + Before(cs, i);
            && m < |W| && W[m].node == cs[i]
            && |Entry(W[m], "")| > 0
            && Entry(W[m], "")[0] == Rails(W[k].path) + Connector(i == |cs| - 1) + cs[i].typeName
  {
    var W := Walk(t, [true]);
    var cs := W[k].node.children;
    WalkChild(t, [true], k, i);
    var p := W[k].path + [i == |cs| - 1];
    assert p[..|p| - 1] == W[k].path;
  }

  /** `print_ast` of the tree built for `1 + x`. */
  lemma {:induction false} PrintAstExample()
    ensures PrintAst(View(BinaryOp("+", Number(1), Identifier("x"))))
            == ["BinaryOp: +", "  Number: 1", "  Identifier: x"]
  {
    assert Decimal.IntToString(1) == "1";
    var n := Record("Number", Some("1"), []);
    var x := Record("Identifier", Some("x"), []);
    var t := Record("BinaryOp", Some("+"), [n, x]);
    assert View(BinaryOp("+", Number(1), Identifier("x"))) == t;
    assert "" + Line(t) == "BinaryOp: +";
    assert "  " + Line(n) == "  Number: 1";
    assert "  " + Line(x) == "  Identifier: x";
    assert Indented(n, "  ") == ["  " + Line(n)] + IndentedKids([], "    ", 0);
    assert Indented(x, "  ") == ["  " + Line(x)] + IndentedKids([], "    ", 0);
    assert IndentedKids([n, x], "  ", 1) == Indented(x, "  ") + IndentedKids([n, x], "  ", 2);
    assert IndentedKids([n, x], "  ", 0) == ["  Number: 1", "  Identifier: x"];
    assert "" + "  " == "  ";
    assert Indented(t, "") == ["BinaryOp: +"] + IndentedKids([n, x], "  ", 0);
    assert PrintAst(t) == Indented(t, "");
  }

  /** `print_ast_as_tree` of the tree built for `1 + x`: the value lines
      hang under their node with a tee, the last child gets the corner. */
  lemma {:induction false} PrintAstAsTreeExample()
    ensures PrintAstAsTree(View(BinaryOp("+", Number(1), Identifier("x"))))
            == ["└── BinaryOp", "    ├── +", "    ├── Number", "    │   ├── 1", "    └── Identifier", "        ├── x"]
  {
    assert Decimal.IntToString(1) == "1";
    var n := Record("Number", Some("1"), []);
    var x := Record("Identifier", Some("x"), []);
    var t := Record("BinaryOp", Some("+"), [n, x]);
    assert View(BinaryOp("+", Number(1), Identifier("x"))) == t;
    assert "" + Connector(true) + "BinaryOp" == "└── BinaryOp";
    assert "" + Rail(true) == "    ";
    assert "    " + "├── " + "+" == "    ├── +";
    assert "    " + Connector(false) + "Number" == "    ├── Number";
    assert "    " + Rail(false) + "├── " + "1" == "    │   ├── 1";
    assert "    " + Connector(true) + "Identifier" == "    └── Identifier";
    assert "    " + Rail(true) + "├── " + "x" == "        ├── x";
    assert Box(n, "    ", false) == ["    ├── Number", "    │   ├── 1"] + BoxKids([], "    │   ", 0);
    assert Box(x, "    ", true) == ["    └── Identifier", "        ├── x"] + BoxKids([], "        ", 0);
    assert BoxKids([n, x], "    ", 1) == Box(x, "    ", true) + BoxKids([n, x], "    ", 2);
    assert BoxKids([n, x], "    ", 0) == ["    ├── Number", "    │   ├── 1", "    └── Identifier", "        ├── x"];
  }
}

=== FILE: results.dfy ===
/** Failure-carrying wrappers shared by the scanner and the tree transformer. */
module Results {

  /** The scanner's answer: `None` stands for the source returning `None`
      after the lexer raised on an unmatched character. */
  datatype Option<+T> = None | Some(value: T)

  /** The Python exception a transformer callback raises, or `Malformed`
      when a production hands a callback a token where the typed AST needs
      a subtree (or the reverse). */
  datatype Failure = IndexError | ValueError | TypeError | Malformed

  datatype Result<+T> = Ok(value: T) | Err(error: Failure)
}

=== FILE: tokens.dfy ===
/** The terminals of the grammar in `create_lexer`: their kinds, the
    character classes their patterns use, and what each pattern matches. */
module Tokens {
  import opened Results
  import Decimal

  /** One kind per terminal, named as the grammar names it. */
  datatype Kind =
    | IDENTIFIER | NUMBER | PLUS | MINUS | TIMES | DIVIDE | LPAREN | RPAREN
    | HASH | ANGLE_OPEN | ANGLE_CLOSE | STRING_LITERAL | LBRACE | RBRACE
    | SEMICOLON | ASSIGN | COMMA

  /** The `(token.type, token.value)` pair the lexer emits. */
  datatype Token = Token(kind: Kind, lexeme: string)

  /** `\s` of the `%ignore /\s+/` rule on ASCII characters: Python's
      `\s` on a `str` pattern matches ` \t\n\r\v\f` and also the
      separators U+001C to U+001F. */
  predicate IsSpace(c: char) {
    || c == ' ' || c == '\t' || c == '\n' || c == '\r' || c == '\U{0B}' || c == '\U{0C}'
    || '\U{1C}' <= c <= '\U{1F}'
  }

  predicate IsDigit(c: char) { Decimal.IsDigit(c) }

  /** `[a-zA-Z_]`, the first character of an IDENTIFIER. */
  predicate IsIdentStart(c: char) {
    'a' <= c <= 'z' || 'A' <= c <= 'Z' || c == '_'
  }

  /** `[a-zA-Z0-9_]`, every later character of an IDENTIFIER. */
  predicate IsIdentChar(c: char) {
    IsIdentStart(c) || IsDigit(c)
  }

  predicate NotNewline(c: char) { c != '\n' }

  predicate NotQuote(c: char) { c != '"' }

  /** The terminals whose pattern is a one-character string. */
  function PunctKind(c: char): Option<Kind> {
    match c
    case '#' => Some(HASH)
    case '<' => Some(ANGLE_OPEN)
    case '>' => Some(ANGLE_CLOSE)
    case '{' => Some(LBRACE)
    case '}' => Some(RBRACE)
    case ';' => Some(SEMICOLON)
    case '=' => Some(ASSIGN)
    case ',' => Some(COMMA)
    case '+' => Some(PLUS)
    case '-' => Some(MINUS)
    case '*' => Some(TIMES)
    case '/' => Some(DIVIDE)
    case '(' => Some(LPAREN)
    case ')' => Some(RPAREN)
    case _ => None
  }

  /** `[a-zA-Z_][a-zA-Z0-9_]*` */
  predicate IsIdentifier(w: string) {
    |w| >= 1 && IsIdentStart(w[0]) && forall j | 1 <= j < |w| :: IsIdentChar(w[j])
  }

  /** `\d+(\.\d*)?`: digits first, then digits and at most one point. */
  predicate IsNumber(w: string) {
    && |w| >= 1
    && IsDigit(w[0])
    && (forall j | 0 <= j < |w| :: IsDigit(w[j]) || w[j] == '.')
    && (forall i, j | 0 <= i < j < |w| :: !(w[i] == '.' && w[j] == '.'))
  }

  /** `"[^"]*"`: a quote, anything but a quote, a quote. */
  predicate IsStringLiteral(w: string) {
    |w| >= 2 && w[0] == '"' && w[|w| - 1] == '"' && forall j | 0 < j < |w| - 1 :: w[j] != '"'
  }

  /** `w` is a lexeme of the terminal `k`. */
  predicate Matches(k: Kind, w: string) {
    match k
    case IDENTIFIER => IsIdentifier(w)
    case NUMBER => IsNumber(w)
    case STRING_LITERAL => IsStringLiteral(w)
    case _ => |w| == 1 && PunctKind(w[0]) == Some(k)
  }

  /** Character `c` right after a lexeme `w` of kind `k` would have let
      the lexer read further: a longer match of the same pattern, or, after
      a slash, a `//` comment, whose pattern is tried first. */
  predicate Extends(k: Kind, w: string, c: char) {
    match k
    case IDENTIFIER => IsIdentChar(c)
    case NUMBER => IsDigit(c) || (c == '.' && forall j | 0 <= j < |w| :: w[j] != '.')
    case DIVIDE => c == '/'
    case _ => false
  }

  /** Text the two `%ignore` rules may skip, `(\s | //.*)*`, read one
      character at a time: `inComment` says whether a `//` comment is open.
      A comment runs up to a line break, which is itself whitespace. */
  predicate TriviaIn(w: string, inComment: bool)
    decreases |w|
  {
    if w == [] then true
    else if inComment then TriviaIn(w[1..], w[0] != '\n')
    else if IsSpace(w[0]) then TriviaIn(w[1..], false)
    else |w| >= 2 && w[0] == '/' && w[1] == '/' && TriviaIn(w[2..], true)
  }

  /** Whitespace and `//` comments only. */
  predicate Trivia(w: string) {
    TriviaIn(w, false)
  }

  /** Whatever can follow closed skippable text can follow an open comment
      too: the comment swallows it up to the next line break, where both
      readings meet again. */
  lemma {:induction false} TriviaInComment(w: string)
    requires TriviaIn(w, false)
    ensures TriviaIn(w, true)
    decreases |w|
  {
    if w != [] && w[0] != '\n' {
      if IsSpace(w[0]) {
        TriviaInComment(w[1..]);
      } else {
        assert w[1..][1..] == w[2..];
      }
    }
  }

  /** Skippable text followed by skippable text is skippable. */
  lemma {:induction false} TriviaInConcat(x: string, y: string, inComment: bool)
    requires TriviaIn(x, inComment) && Trivia(y)
    ensures TriviaIn(x + y, inComment)
    decreases |x|
  {
    if x == [] {
      assert x + y == y;
      if inComment {
        TriviaInComment(y);
      }
    } else {
      assert (x + y)[1..] == x[1..] + y;
      if inComment {
        TriviaInConcat(x[1..], y, x[0] != '\n');
      } else if IsSpace(x[0]) {
        TriviaInConcat(x[1..], y, false);
      } else {
        assert (x + y)[2..] == x[2..] + y;
        TriviaInConcat(x[2..], y, true);
      }
    }
  }

  lemma TriviaConcat(x: string, y: string)
    requires Trivia(x) && Trivia(y)
    ensures Trivia(x + y)
  {
    TriviaInConcat(x, y, false);
  }

  /** A run of whitespace characters is skippable. */
  lemma {:induction false} SpaceRunIsTrivia(w: string)
    requires forall j | 0 <= j < |w| :: IsSpace(w[j])
    ensures Trivia(w)
    decreases |w|
  {
    if w != [] {
      SpaceRunIsTrivia(w[1..]);
    }
  }

  /** The inside of an open comment without a line break is skippable. */
  lemma {:induction false} CommentBodyIsTrivia(w: string)
    requires forall j | 0 <= j < |w| :: w[j] != '\n'
    ensures TriviaIn(w, true)
    decreases |w|
  {
    if w != [] {
      CommentBodyIsTrivia(w[1..]);
    }
  }

  /** A `//` comment without a line break is skippable. */
  lemma CommentIsTrivia(w: string)
    requires |w| >= 2 && w[..2] == "//"
    requires forall j | 2 <= j < |w| :: w[j] != '\n'
    ensures Trivia(w)
  {
    assert w[0] == '/' && w[1] == '/';
    CommentBodyIsTrivia(w[2..]);
  }

  /** Skippable text that starts with a `//` comment stays skippable once
      the comment, up to the next line break or the end, is cut off. */
  lemma {:induction false} TriviaAfterComment(w: string, e: nat)
    requires 2 <= e <= |w| && w[0] == '/' && w[1] == '/' && Trivia(w)
    requires forall j | 2 <= j < e :: w[j] != '\n'
    requires e == |w| || w[e] == '\n'
    ensures Trivia(w[e..])
  {
    assert TriviaIn(w[2..], true);
    CommentRun(w, 2, e);
    if e < |w| {
      assert w[e..][1..] == w[e + 1..];
    }
  }

  /** Inside an open comment, reading characters that are not line breaks
      keeps the comment open and the rest skippable. */
  lemma {:induction false} CommentRun(w: string, i: nat, e: nat)
    requires i <= e <= |w| && TriviaIn(w[i..], true)
    requires forall j | i <= j < e :: w[j] != '\n'
    ensures TriviaIn(w[e..], true)
    decreases e - i
  {
    if i < e {
      assert w[i..][1..] == w[i + 1..];
      CommentRun(w, i + 1, e);
    }
  }

  /** Skippable text that starts with whitespace stays skippable without
      it: a comment cannot start with whitespace. */
  lemma TriviaDropSpace(w: string)
    requires Trivia(w) && |w| > 0 && IsSpace(w[0])
    ensures Trivia(w[1..])
  {
  }

  /** Whitespace and `//` comments, each comment closed by a line break:
      the text the lexer skips in front of a token. A comment runs to the
      end of its line, so one left open would have swallowed the token. */
  predicate SettledIn(w: string, inComment: bool)
    decreases |w|
  {
    if w == [] then !inComment
    else if inComment then SettledIn(w[1..], w[0] != '\n')
    else if IsSpace(w[0]) then SettledIn(w[1..], false)
    else |w| >= 2 && w[0] == '/' && w[1] == '/' && SettledIn(w[2..], true)
  }

  predicate Settled(w: string) {
    SettledIn(w, false)
  }

  /** Settled text is skippable text. */
  lemma {:induction false} SettledIsTrivia(w: string, inComment: bool)
    requires SettledIn(w, inComment)
    ensures TriviaIn(w, inComment)
    decreases |w|
  {
    if w != [] {
      if inComment {
        SettledIsTrivia(w[1..], w[0] != '\n');
      } else if IsSpace(w[0]) {
        SettledIsTrivia(w[1..], false);
      } else {
        SettledIsTrivia(w[2..], true);
      }
    }
  }

  /** Settled text followed by settled text is settled. */
  lemma {:induction false} SettledInConcat(x: string, y: string, inComment: bool)
    requires SettledIn(x, inComment) && Settled(y)
    ensures SettledIn(x + y, inComment)
    decreases |x|
  {
    if x == [] {
      assert x + y == y;
    } else {
      assert (x + y)[1..] == x[1..] + y;
      if inComment {
        SettledInConcat(x[1..], y, x[0] != '\n');
      } else if IsSpace(x[0]) {
        SettledInConcat(x[1..], y, false);
      } else {
        assert (x + y)[2..] == x[2..] + y;
        SettledInConcat(x[2..], y, true);
      }
    }
  }

  /** Skippable text, even one ending inside a comment, is settled once a
      line break and settled text follow it: the line break closes the
      comment. */
  lemma {:induction false} TriviaThenLine(x: string, y: string, inComment: bool)
    requires TriviaIn(x, inComment) && |y| > 0 && y[0] == '\n' && Settled(y)
    ensures SettledIn(x + y, inComment)
    decreases |x|
  {
    if x == [] {
      assert x + y == y;
    } else {
      assert (x + y)[1..] == x[1..] + y;
      if inComment {
        TriviaThenLine(x[1..], y, x[0] != '\n');
      } else if IsSpace(x[0]) {
        TriviaThenLine(x[1..], y, false);
      } else {
        assert (x + y)[2..] == x[2..] + y;
        TriviaThenLine(x[2..], y, true);
      }
    }
  }

  /** A run of whitespace characters is settled. */
  lemma {:induction false} SpaceRunIsSettled(w: string)
    requires forall j | 0 <= j < |w| :: IsSpace(w[j])
    ensures Settled(w)
    decreases |w|
  {
    if w != [] {
      SpaceRunIsSettled(w[1..]);
    }
  }

  /** Settled text that starts with a `//` comment has a line break after
      the comment, and is still settled from that line break on. */
  lemma {:induction false} SettledAfterComment(w: string, e: nat)
    requires 2 <= e <= |w| && w[0] == '/' && w[1] == '/' && Settled(w)
    requires forall j | 2 <= j < e :: w[j] != '\n'
    requires e == |w| || w[e] == '\n'
    ensures e < |w| && Settled(w[e..])
  {
    assert SettledIn(w[2..], true);
    SettledCommentRun(w, 2, e);
    if e < |w| {
      assert w[e..][1..] == w[e + 1..];
    }
  }

  lemma {:induction false} SettledCommentRun(w: string, i: nat, e: nat)
    requires i <= e <= |w| && SettledIn(w[i..], true)
    requires forall j | i <= j < e :: w[j] != '\n'
    ensures SettledIn(w[e..], true)
    decreases e - i
  {
    if i < e {
      assert w[i..][1..] == w[i + 1..];
      SettledCommentRun(w, i + 1, e);
    }
  }

  /** What the first character of a lexeme says about its kind: the
      patterns start with disjoint sets of characters, none of them
      whitespace, and a one-character terminal's lexeme is that
      character. */
  lemma KindByFirst(k: Kind, w: string)
    requires Matches(k, w)
    ensures |w| >= 1 && !IsSpace(w[0])
    ensures IsIdentStart(w[0]) <==> k == IDENTIFIER
    ensures IsDigit(w[0]) <==> k == NUMBER
    ensures w[0] == '"' <==> k == STRING_LITERAL
    ensures PunctKind(w[0]).Some? ==> k == PunctKind(w[0]).value && |w| == 1
  {
  }
}

=== FILE: transformer.dfy ===
/** `ParserTransformer`: the callbacks that turn each production's children
    into AST nodes, and the bottom-up walk that applies them. */
module Transformer {
  import opened Results
  import opened Tokens
  import opened Ast
  import Decimal

  /** `statement`: the first child, unchanged. */
  function StatementOf(items: seq<Item>): (r: Result<Item>)
    ensures |items| == 0 ==> r == Err(IndexError)
    ensures |items| > 0 ==> r == Ok(items[0])
  {
    if |items| == 0 then Err(IndexError) else Ok(items[0])
  }

  /** The loop of `expression`: starting from `acc`, take the operator at
      `i` and the operand after it and make them a `BinaryOp` over `acc`,
      two items at a time, for as long as an operator has an operand after
      it (`range(1, len(items) - 1, 2)`). */
  function FoldFrom(acc: Item, items: seq<Item>, i: nat): Result<Item>
    decreases |items| - i
  {
    if i + 1 >= |items| then Ok(acc)
    else
      match (acc, items[i], items[i + 1])
      case (Sub(l), Tok(op), Sub(r)) => FoldFrom(Sub(BinaryOp(op.lexeme, l, r)), items, i + 2)
      case _ => Err(Malformed)
  }

  /** `expression`: `[e0, op1, e1, op2, e2, ...]` folded to the left. */
  function ExpressionOf(items: seq<Item>): (r: Result<Item>)
    ensures |items| == 0 ==> r == Err(IndexError)
    ensures |items| == 1 ==> r == Ok(items[0])
  {
    if |items| == 0 then Err(IndexError)
    else if |items| == 1 then Ok(items[0])
    else FoldFrom(items[0], items, 1)
  }

  /** `factor` as written. A lexer token is a `str`, so every token, an
      IDENTIFIER as much as a NUMBER, goes to `int(...)`. */
  function FactorAsWritten(items: seq<Item>): (r: Result<Item>)
    ensures |items| == 0 ==> r == Err(IndexError)
    ensures |items| > 0 && items[0].Tok? ==>
              (r.Ok? <==> 0 < |items[0].token.lexeme| <= Decimal.MaxStrDigits && Decimal.AllDigits(items[0].token.lexeme))
    ensures |items| > 0 && items[0].Tok? && r.Err? ==> r == Err(ValueError)
    ensures |items| > 0 && items[0].Tok? && r.Ok? ==>
              r.value.Sub? && r.value.node.Number?
              && Decimal.ParseInt(items[0].token.lexeme) == Some(r.value.node.num)
    ensures |items| > 0 && items[0].Sub? ==> r == Ok(items[0])
  {
    if |items| == 0 then Err(IndexError)
    else
      match items[0]
      case Tok(t) =>
        (match Decimal.ParseInt(t.lexeme)
         case Some(v) => Ok(Sub(Number(v)))
         case None => Err(ValueError))
      case Sub(n) => Ok(Sub(n))
      case Absent => Err(Malformed)
  }

  /** `factor` as intended: a NUMBER token becomes a `Number` holding
      `int(text)` (which raises on a decimal point), a subtree already built
      (a parenthesised expression) passes through unchanged, and any other
      token becomes an `Identifier`. */
  function FactorOf(items: seq<Item>): (r: Result<Item>)
    ensures |items| == 0 ==> r == Err(IndexError)
    ensures |items| > 0 && items[0].Tok? && items[0].token.kind == NUMBER ==>
              (r.Ok? <==> 0 < |items[0].token.lexeme| <= Decimal.MaxStrDigits && Decimal.AllDigits(items[0].token.lexeme))
    ensures |items| > 0 && items[0].Tok? && items[0].token.kind == NUMBER && r.Err? ==> r == Err(ValueError)
    ensures |items| > 0 && items[0].Tok? && items[0].token.kind == NUMBER && r.Ok? ==>
              r.value.Sub? && r.value.node.Number?
              && Decimal.ParseInt(items[0].token.lexeme) == Some(r.value.node.num)
    ensures |items| > 0 && items[0].Tok? && items[0].token.kind != NUMBER ==>
              r == Ok(Sub(Identifier(items[0].token.lexeme)))
    ensures |items| > 0 && items[0].Sub? ==> r == Ok(items[0])
  {
    if |items| == 0 then Err(IndexError)
    else
      match items[0]
      case Tok(t) =>
        if t.kind == NUMBER then
          (match Decimal.ParseInt(t.lexeme)
           case Some(v) => Ok(Sub(Number(v)))
           case None => Err(ValueError))
        else
          Ok(Sub(Identifier(t.lexeme)))
      case Sub(n) => Ok(Sub(n))
      case Absent => Err(Malformed)
  }

  /** `declaration`: with two children, a `Declaration` of the type and the
      name; otherwise an `Assignment` whose value is the fourth child. Type
      and name are the texts of the first two tokens, unchanged. */
  function DeclarationOf(items: seq<Item>): (r: Result<Item>)
    ensures |items| < 2 || |items| == 3 ==> r == Err(IndexError)
    ensures r.Ok? && r.value.Sub? && r.value.node.Declaration? <==>
              |items| == 2 && items[0].Tok? && items[1].Tok?
    ensures r.Ok? && r.value.Sub? && r.value.node.Assignment? <==>
              |items| >= 4 && items[0].Tok? && items[1].Tok? && items[3].Sub?
    ensures r.Ok? ==> r.value.Sub? && (r.value.node.Declaration? || r.value.node.Assignment?)
    ensures r.Ok? ==> r.value.node.typeName == items[0].token.lexeme
                      && r.value.node.varName == items[1].token.lexeme
    ensures r.Ok? && r.value.node.Assignment? ==> r.value.node.rhs == items[3].node
  {
    if |items| < 2 || |items| == 3 then Err(IndexError)
    else if !items[0].Tok? || !items[1].Tok? then Err(Malformed)
    else
      var ty, name := items[0].token.lexeme, items[1].token.lexeme;
      if |items| == 2 then Ok(Sub(Declaration(ty, name)))
      else if items[3].Sub? then Ok(Sub(Assignment(ty, name, items[3].node)))
      else Err(Malformed)
  }

  /** Number of subtrees among `items`. */
  function CountSubs(items: seq<Item>): nat
  {
    if items == [] then 0 else (if items[0].Sub? then 1 else 0) + CountSubs(items[1..])
  }

  /** The subtrees among `items`, in order, with the `None` placeholders
      left out: the subtree at position `j` lands at the position given by
      the number of subtrees before it, so nothing is inserted, dropped or
      reordered. */
  function Present(items: seq<Item>): (ns: seq<Node>)
    ensures |ns| == CountSubs(items)
    ensures forall j | 0 <= j < |items| && items[j].Sub? ::
              CountSubs(items[..j]) < |ns| && ns[CountSubs(items[..j])] == items[j].node
  {
    if items == [] then []
    else
      var rest := Present(items[1..]);
      var ns := if items[0].Sub? then [items[0].node] + rest else rest;
      assert forall j | 1 <= j <= |items| :: items[..j][1..] == items[1..][..j - 1];
      assert forall j | 1 <= j <= |items| :: CountSubs(items[..j]) == (if items[0].Sub? then 1 else 0) + CountSubs(items[1..][..j - 1]);
      assert CountSubs(items[..0]) == 0;
      ns
  }

  /** `compound_statement` as written: the `ASTNode` constructor takes no
      `children` argument, so the call raises `TypeError` on any input. */
  function CompoundAsWritten(items: seq<Item>): Result<Item>
  {
    Err(TypeError)
  }

  /** `compound_statement` as intended: a `CompoundStatement` whose
      statements are the non-empty children, in source order. */
  function CompoundOf(items: seq<Item>): (r: Result<Item>)
    ensures r.Ok? <==> forall j | 0 <= j < |items| :: !items[j].Tok?
    ensures r.Ok? ==> r.value.Sub? && r.value.node.CompoundStatement?
                      && r.value.node.statements == Present(items)
  {
    if exists j | 0 <= j < |items| :: items[j].Tok? then Err(Malformed)
    else Ok(Sub(CompoundStatement(Present(items))))
  }

  /** The callback the transformer calls for a production. */
  function Apply(rule: Rule, items: seq<Item>): Result<Item>
  {
    match rule
    case StatementRule => StatementOf(items)
    case ExpressionRule => ExpressionOf(items)
    case FactorRule => FactorOf(items)
    case DeclarationRule => DeclarationOf(items)
    case CompoundRule => CompoundOf(items)
  }

  /** `transformer.transform(tree)` with the corrected callbacks (`FactorOf`
      and `CompoundOf`, not the as-written `factor` and
      `compound_statement`): children first, left to right, then the
      production's callback on their results. An exception in any callback
      aborts the whole walk with that exception. */
  function Transform(t: ParseTree): (r: Result<Item>)
    ensures t.Leaf? ==> r == Ok(Tok(t.token))
    ensures t.Missing? ==> r == Ok(Absent)
    ensures t.Branch? && (exists k | 0 <= k < |t.kids| :: Transform(t.kids[k]).Err?) ==> r.Err?
    ensures t.Branch? && TransformAll(t.kids).Err? ==> r == Err(TransformAll(t.kids).error)
    ensures t.Branch? && TransformAll(t.kids).Ok? ==> r == Apply(t.rule, TransformAll(t.kids).value)
    decreases t
  {
    match t
    case Leaf(tok) => Ok(Tok(tok))
    case Missing => Ok(Absent)
    case Branch(rule, kids) =>
      match TransformAll(kids)
      case Err(e) => Err(e)
      case Ok(items) => Apply(rule, items)
  }

  /** The children of a production, transformed in order; the first failure
      is the answer. */
  function TransformAll(kids: seq<ParseTree>): (r: Result<seq<Item>>)
    ensures r.Ok? <==> forall k | 0 <= k < |kids| :: Transform(kids[k]).Ok?
    ensures r.Ok? ==> |r.value| == |kids|
                      && forall k | 0 <= k < |kids| :: r.value[k] == Transform(kids[k]).value
    ensures r.Err? ==> exists k | 0 <= k < |kids| ::
                         (forall m | 0 <= m < k :: Transform(kids[m]).Ok?) && Transform(kids[k]) == Err(r.error)
    decreases kids
  {
    if kids == [] then Ok([])
    else
      match Transform(kids[0])
      case Err(e) => Err(e)
      case Ok(x) =>
        match TransformAll(kids[1..])
        case Err(e) =>
          var k :| 0 <= k < |kids[1..]| && (forall m | 0 <= m < k :: Transform(kids[1..][m]).Ok?)
                   && Transform(kids[1..][k]) == Err(e);
          assert forall m | 0 <= m < k + 1 :: Transform(kids[m]).Ok? by {
            forall m | 0 <= m < k + 1 ensures Transform(kids[m]).Ok? {
              if m > 0 { assert kids[m] == kids[1..][m - 1]; }
            }
          }
          assert Transform(kids[k + 1]) == Err(e);
          Err(e)
        case Ok(xs) => Ok([x] + xs)
  }

  /** An operator token and the operand after it, in an `expression`. */
  datatype Link = Link(op: Token, operand: Node)

  /** The children of an `expression` for `first op1 e1 op2 e2 ...`. */
  function Spread(first: Node, links: seq<Link>): (items: seq<Item>)
    ensures |items| == 2 * |links| + 1 && items[0] == Sub(first)
    ensures forall m | 0 <= m < |links| ::
              items[2 * m + 1] == Tok(links[m].op) && items[2 * m + 2] == Sub(links[m].operand)
  {
    if links == [] then [Sub(first)]
    else
      var last := links[|links| - 1];
      var front := Spread(first, links[..|links| - 1]);
      assert forall m | 0 <= m < |links| - 1 :: links[..|links| - 1][m] == links[m];
      front + [Tok(last.op), Sub(last.operand)]
  }

  /** `BinaryOp(opk, ...BinaryOp(op1, e0, e1)..., ek)`: the last operator at
      the root, its left operand everything before it. */
  function NestLeft(first: Node, links: seq<Link>): Node
  {
    if links == [] then first
    else
      var last := links[|links| - 1];
      BinaryOp(last.op.lexeme, NestLeft(first, links[..|links| - 1]), last.operand)
  }

  /** `expression` nests its operators to the left: `a - b - c` is
      `(a - b) - c`, whatever the operators are. */
  lemma {:induction false} ExpressionFoldsLeft(first: Node, links: seq<Link>)
    ensures ExpressionOf(Spread(first, links)) == Ok(Sub(NestLeft(first, links)))
  {
    if links != [] {
      assert links[..0] == [];
      FoldsLeftFrom(first, links, 0);
    }
  }

  lemma {:induction false} FoldsLeftFrom(first: Node, links: seq<Link>, m: nat)
    requires m <= |links|
    ensures FoldFrom(Sub(NestLeft(first, links[..m])), Spread(first, links), 2 * m + 1)
            == Ok(Sub(NestLeft(first, links)))
    decreases |links| - m
  {
    var items := Spread(first, links);
    if m == |links| {
      assert links[..m] == links;
      FoldEnd(Sub(NestLeft(first, links)), items, 2 * m + 1);
    } else {
      SpreadStep(first, links, m);
      NestLeftStep(first, links, m);
      FoldStep(NestLeft(first, links[..m]), items, 2 * m + 1);
      FoldsLeftFrom(first, links, m + 1);
    }
  }

  /** The `expression` loop stops when no operator has an operand after it. */
  lemma FoldEnd(acc: Item, items: seq<Item>, i: nat)
    requires i + 1 >= |items|
    ensures FoldFrom(acc, items, i) == Ok(acc)
  {
  }

  lemma SpreadStep(first: Node, links: seq<Link>, m: nat)
    requires m < |links|
    ensures 2 * m + 2 < |Spread(first, links)|
    ensures Spread(first, links)[2 * m + 1] == Tok(links[m].op)
    ensures Spread(first, links)[2 * m + 2] == Sub(links[m].operand)
  {
  }

  /** One turn of the `expression` loop. */
  lemma FoldStep(acc: Node, items: seq<Item>, i: nat)
    requires i + 1 < |items| && items[i].Tok? && items[i + 1].Sub?
    ensures FoldFrom(Sub(acc), items, i)
            == FoldFrom(Sub(BinaryOp(items[i].token.lexeme, acc, items[i + 1].node)), items, i + 2)
  {
  }

  lemma NestLeftStep(first: Node, links: seq<Link>, m: nat)
    requires m < |links|
    ensures NestLeft(first, links[..m + 1])
            == BinaryOp(links[m].op.lexeme, NestLeft(first, links[..m]), links[m].operand)
  {
    assert links[..m + 1][..m] == links[..m];
    assert links[..m + 1][m] == links[m];
  }

  /** Sum of the `BinaryOp` counts of the operands. */
  function OperandOps(links: seq<Link>): nat
  {
    if links == [] then 0 else OperandOps(links[..|links| - 1]) + BinaryOps(links[|links| - 1].operand)
  }

  /** Folding `2k + 1` children adds exactly `k` new `BinaryOp` nodes to
      those already inside the operands. */
  lemma {:induction false} FoldAddsOneOpPerOperator(first: Node, links: seq<Link>)
    ensures BinaryOps(NestLeft(first, links)) == |links| + BinaryOps(first) + OperandOps(links)
    decreases |links|
  {
    if links != [] {
      FoldAddsOneOpPerOperator(first, links[..|links| - 1]);
    }
  }

  /** An operator left dangling at the end of an `expression` (any child
      after an odd number of children) is dropped without complaint: the
      loop stops before it. */
  lemma {:induction false} TrailingOperatorIgnored(items: seq<Item>, extra: Item)
    requires |items| % 2 == 1
    ensures ExpressionOf(items + [extra]) == ExpressionOf(items)
  {
    var items' := items + [extra];
    assert items'[0] == items[0];
    if |items| == 1 {
      assert ExpressionOf(items') == FoldFrom(items[0], items', 1) == Ok(items[0]);
    } else {
      FoldIgnoresExtra(items[0], items, extra, 1);
    }
  }

  lemma {:induction false} FoldIgnoresExtra(acc: Item, items: seq<Item>, extra: Item, i: nat)
    requires i <= |items| && (|items| - i) % 2 == 0
    ensures FoldFrom(acc, items + [extra], i) == FoldFrom(acc, items, i)
    decreases |items| - i
  {
    if i + 1 < |items| {
      var items' := items + [extra];
      assert items'[i] == items[i] && items'[i + 1] == items[i + 1];
      match (acc, items[i], items[i + 1])
      case (Sub(l), Tok(o), Sub(r)) =>
        FoldIgnoresExtra(Sub(BinaryOp(o.lexeme, l, r)), items, extra, i + 2);
      case _ =>
    }
  }

  /** `factor` sorts its child: a NUMBER token of digits only, at most
      `MaxStrDigits` of them, becomes a `Number` holding the digits' value,
      a NUMBER with a decimal point or more digits raises `ValueError`, any
      other token becomes an `Identifier` named by its text, and a subtree
      comes back as it is, with no node for the parentheses around it. */
  lemma {:induction false} FactorClassification(item: Item, rest: seq<Item>)
    ensures item.Tok? && item.token.kind == NUMBER && IsNumber(item.token.lexeme) ==>
              (FactorOf([item] + rest).Ok? <==>
                 |item.token.lexeme| <= Decimal.MaxStrDigits
                 && forall j | 0 <= j < |item.token.lexeme| :: item.token.lexeme[j] != '.')
    ensures item.Tok? && item.token.kind == NUMBER && FactorOf([item] + rest).Err? ==>
              FactorOf([item] + rest) == Err(ValueError)
    ensures item.Tok? && item.token.kind == NUMBER && FactorOf([item] + rest).Ok? ==>
              FactorOf([item] + rest).value.Sub? && FactorOf([item] + rest).value.node.Number?
              && Decimal.ParseInt(item.token.lexeme) == Some(FactorOf([item] + rest).value.node.num)
    ensures item.Tok? && item.token.kind != NUMBER ==>
              FactorOf([item] + rest) == Ok(Sub(Identifier(item.token.lexeme)))
    ensures item.Sub? ==> FactorOf([item] + rest) == Ok(item)
    ensures item.Absent? ==> FactorOf([item] + rest).Err?
  {
    var items := [item] + rest;
    assert items[0] == item;
    if item.Tok? && item.token.kind == NUMBER && IsNumber(item.token.lexeme) {
      var w := item.token.lexeme;
      if forall j | 0 <= j < |w| :: w[j] != '.' {
        assert Decimal.AllDigits(w);
      }
    }
  }

  /** The source's `factor` turns every identifier into a `ValueError`
      where an `Identifier` node was meant. */
  lemma {:induction false} FactorAsWrittenRejectsIdentifiers(t: Token, rest: seq<Item>)
    requires t.kind == IDENTIFIER && IsIdentifier(t.lexeme)
    ensures FactorAsWritten([Tok(t)] + rest) == Err(ValueError)
    ensures FactorOf([Tok(t)] + rest) == Ok(Sub(Identifier(t.lexeme)))
  {
    assert !Decimal.IsDigit(t.lexeme[0]);
    assert ([Tok(t)] + rest)[0] == Tok(t);
  }

  /** The source's `compound_statement` fails on every input, even a brace
      pair with nothing inside. */
  lemma {:induction false} CompoundAsWrittenAlwaysFails(items: seq<Item>)
    ensures CompoundAsWritten(items) == Err(TypeError)
    ensures CompoundOf([]) == Ok(Sub(CompoundStatement([])))
  {
  }

  /** A `statement` around a single subtree adds nothing. */
  lemma {:induction false} StatementTransparent(t: ParseTree)
    ensures Transform(Branch(StatementRule, [t])) == Transform(t)
  {
    assert TransformAll([t]).Ok? <==> Transform(t).Ok?;
  }

  /** A `factor` around an expression already built, the parenthesised
      case, adds nothing. */
  lemma {:induction false} ParenthesesTransparent(t: ParseTree)
    requires Transform(t).Ok? && Transform(t).value.Sub?
    ensures Transform(Branch(FactorRule, [t])) == Transform(t)
  {
    assert TransformAll([t]).Ok?;
  }

  /** `1 + 2 - 3`, with a `factor` around each number, builds
      `BinaryOp('-', BinaryOp('+', 1, 2), 3)`. */
  lemma {:induction false} LeftAssociativeExample()
    ensures var one := Leaf(Token(NUMBER, "1"));
            var two := Leaf(Token(NUMBER, "2"));
            var three := Leaf(Token(NUMBER, "3"));
            Transform(Branch(ExpressionRule, [Branch(FactorRule, [one]), Leaf(Token(PLUS, "+")), Branch(FactorRule, [two]),
                                              Leaf(Token(MINUS, "-")), Branch(FactorRule, [three])]))
            == Ok(Sub(BinaryOp("-", BinaryOp("+", Number(1), Number(2)), Number(3))))
  {
    var one := Leaf(Token(NUMBER, "1"));
    var two := Leaf(Token(NUMBER, "2"));
    var three := Leaf(Token(NUMBER, "3"));
    assert Decimal.ParseInt("1") == Some(1);
    assert Decimal.ParseInt("2") == Some(2);
    assert Decimal.ParseInt("3") == Some(3);
    var kids := [Branch(FactorRule, [one]), Leaf(Token(PLUS, "+")), Branch(FactorRule, [two]),
                 Leaf(Token(MINUS, "-")), Branch(FactorRule, [three])];
    var items := [Sub(Number(1)), Tok(Token(PLUS, "+")), Sub(Number(2)), Tok(Token(MINUS, "-")), Sub(Number(3))];
    forall k | 0 <= k < 5
      ensures Transform(kids[k]) == Ok(items[k])
    {
    }
    assert TransformAll(kids).Ok?;
    assert TransformAll(kids).value == items;
    var sum := BinaryOp("+", Number(1), Number(2));
    FoldStep(Number(1), items, 1);
    FoldStep(sum, items, 3);
    FoldEnd(Sub(BinaryOp("-", sum, Number(3))), items, 5);
  }
}
